=== FILE: README.md ===
# SQL dump conversion loops, modelled in Dafny

The repository converts SQL dumps in two stages. Each stage is one pass over
the input lines that carries a few flags and accumulators:

- **Stage A** (`phpmyadmin_to_mysql` in `sconv.py`, and the module-level copy
  in `phpmyadmin2mysqldump.py`) turns a phpMyAdmin export into mysqldump form.
  It collects each `CREATE TABLE` body under the table's name and remembers
  the order of the declarations, a redeclared name again. It applies later
  `ALTER TABLE` blocks to the collected bodies: `ADD` appends a column and
  `MODIFY` replaces one in place. It joins multi-line `INSERT` statements into
  one record and drops those with an empty `VALUES;`. At the end it writes
  every table as one `CREATE TABLE` block, then the data records.
- **Stage B** (`mysqldump_to_sqlite` in `sconv.py`) turns mysqldump form into
  a SQLite script. It writes a fixed `PRAGMA`/`BEGIN TRANSACTION;` header.
  It rewrites each column line of a table and holds it back as the pending
  line. The comma that separates two columns is written in front of the
  later one, so the last column never gets a trailing comma. `  KEY` lines
  become `CREATE INDEX` statements, kept per table and written after
  everything else in ascending order of table name. Top-level `INSERT` lines
  are unescaped and written. `END TRANSACTION;` comes last.

Both stages are modelled as a pure `Step` function on a state record, folded
over `seq<string>` by `Run`. Each element of the sequence is one input line
with its newline, as Python's file iteration yields it. Output is the
sequence of chunks passed to `write`, in order. A Python exception becomes a
`Failure` of the stage's `Error` type.

The regular expressions are abstract, passed in as function-valued fields:

- `Classify.Patterns` holds the ones at `sconv.py:40-50`. The same
  expressions appear at `phpmyadmin2mysqldump.py:21-31`.
- `Translator.KeyPatterns` holds the ones at `sconv.py:185-186` and the
  inline ones at `sconv.py:240-262`.

The two stage A copies differ only in the table-close expression. Stage A is
therefore modelled once, parameterised by it, and lemmas that depend on the
difference say which close test they assume.

Plain string operations are modelled concretely:

- `lstrip`, `rstrip` and `strip`;
- `" ".join` and `"\n".join`;
- `str.replace`;
- the `re.sub(",$", "", line)` that drops a trailing comma;
- the first match of `re.findall` for the index name and columns;
- the `CREATE INDEX` text.

Files:

- `wrappers.dfy`: `Option` and `Result`.
- `text.dfy`: the string operations.
- `ordering.dfy`: Python's string order and `sorted(keys)`.
- `classify.dfy`: the stage A classifiers.
- `canonicalizer.dfy` and `canonicalizer_facts.dfy`: stage A and its properties.
- `translator.dfy` and `translator_facts.dfy`: stage B and its properties.

## Model

| member | source | states |
|---|---|---|
| Canonicalizer.Step | sconv.py:76-150 | One loop iteration keeps the state invariant: the defined tables are exactly the declared names, and at most one of `in_insert`, `in_table_def` and `in_alter_table` is set. Declared names and data records are only ever extended. Empty and comment lines change nothing. The only exceptions come from an `ADD` or `MODIFY` line inside an alter block. |
| Canonicalizer.Run | sconv.py:76-150 | The whole loop keeps the invariant, and `table_order` and the data records are only ever extended at the end. |
| Canonicalizer.InsertLine | sconv.py:83-97 | Inside an open `INSERT`, an empty `VALUES;` line ends the statement and writes nothing. A line closing with `)...;` writes one record: a newline, then the buffered fragments plus its own joined by spaces. Any other line adds its trimmed fragment to the buffer. |
| Canonicalizer.TableLine | sconv.py:99-105 | Inside a table body, the closing line ends the body and stores nothing. Every other line is appended to the current table's body without its newlines; other tables are untouched. |
| Canonicalizer.AppendColumn | sconv.py:110-112 | After `ADD`, the body is one line longer. The former last line has gained a comma, the new last line is two spaces then the clause, and all earlier lines are unchanged. |
| CanonicalizerFacts.AppendColumns | sconv.py:108-113 | After several `ADD` clauses in turn, the former lines but the last are kept. The former last line and every clause but the last gain a comma, each clause is indented by two spaces, and the last clause ends the body without one. |
| CanonicalizerFacts.AddStep | sconv.py:107-113 | In an open alter block, an `ADD` line on a table with a body appends its clause to that body, and changes nothing else. |
| CanonicalizerFacts.AddBlock | sconv.py:107-113 | The alter block stays open across consecutive `ADD` lines, so every clause is applied to the same table in order. The body becomes `AppendColumns` of all the clauses, and nothing else changes. |
| CanonicalizerFacts.AlterTableAdds | sconv.py:107-140 | `ALTER TABLE t` followed by any number of `ADD` lines opens the block on `t` and appends all the clauses to `t`'s body in order. |
| Canonicalizer.ApplyAdd | sconv.py:108-113 | `ADD` fails exactly when the table has no body (KeyError) or an empty one (IndexError). Otherwise only that table's body changes, by `AppendColumn`. The alter block stays open on the same table, and every other part of the state, `table_order` and the data included, is unchanged. |
| Canonicalizer.FindColumn | sconv.py:118-124 | The scan stops at the first body line whose quoted column name equals the wanted one. It raises at the first line that has no quoted name. It finds nothing exactly when every line is named and none names the column. |
| Canonicalizer.ApplyModify | sconv.py:114-125 | A clause without a quoted column name changes nothing, and an unknown table raises KeyError. Otherwise the outcome is decided by the scan of the body. If it finds a line naming the same column, that line alone is replaced where it stands by a space, the clause and a comma. If it first meets a line without a quoted name, the clause raises with that line. If every line names another column, nothing changes. Other tables, `table_order` and the data stay the same. The alter block stays open and nothing else in the state changes. |
| Canonicalizer.TopLevel | sconv.py:128-150 | `CREATE TABLE` appends its name to `table_order` (again, if already seen) and resets that table's body to empty. `ALTER TABLE` only opens an alter block on the named table. An `INSERT` with empty `VALUES;` is dropped, one closed on the same line is written unchanged, and any other is buffered. Every other line changes nothing. |
| Canonicalizer.AlterLine | sconv.py:107-126 | In an alter block `ADD` is tried first, then `MODIFY`. Any other line clears the alter flag and is handled as a top-level line in the same step. |
| Canonicalizer.CreateBlocks | sconv.py:158-159 | One `CREATE TABLE` block per declared name, in declaration order, each holding that table's final body joined by newlines. |
| Canonicalizer.Emit | sconv.py:158-162 | The dump is the `CREATE TABLE` blocks, one per entry of `table_order` and in that order, followed by the data records unchanged and in input order. |
| Canonicalizer.Convert | sconv.py:76-162 | The conversion fails exactly when the loop raises, with the same exception. Otherwise every declared table has a body, and the output is all `CREATE TABLE` blocks in declaration order (a redeclared name again) followed by all data records in input order. |
| Canonicalizer.StartValid | sconv.py:68-74 | The loop starts with no flag set and with no tables, as the invariant requires. |
| CanonicalizerFacts.SkippedLinesTransparent | phpmyadmin2mysqldump.py:74-79 | Empty lines and lines starting with `#` or `/*` are skipped in every state, including inside table bodies and open `INSERT`s. Removing them from the input gives the same result. |
| CanonicalizerFacts.TableBodyCollected | phpmyadmin2mysqldump.py:97-103 | From an open body, non-closing lines and then the closing line store exactly those lines, in order and without their newlines, and close the body. |
| CanonicalizerFacts.TableDefinition | phpmyadmin2mysqldump.py:126-132 | A `CREATE TABLE` line, body lines and a close append the name to `table_order` (even when it was already there). The table's body becomes exactly the new body lines, and any earlier body of that name is dropped. |
| CanonicalizerFacts.BareCloseStoredInBody | phpmyadmin2mysqldump.py:22 | Under a close test that wants white space after the `)`, a bare `);` line does not close the table. It is stored in the body as `);`. |
| CanonicalizerFacts.RedeclaredTableEmittedAlike | phpmyadmin2mysqldump.py:156-157 | A table declared twice is emitted twice, both times with the body it has at the end. |
| CanonicalizerFacts.InsertCompleted | phpmyadmin2mysqldump.py:81-95 | From an open `INSERT`, continuation lines and then a closing line produce one record. It holds the buffered fragments plus each line's fragment with spaces and tabs trimmed on the left and `\r\n` on the right, joined by single spaces. |
| CanonicalizerFacts.MultiLineInsert | phpmyadmin2mysqldump.py:140-145 | An `INSERT` spread over N lines adds exactly one data record: a newline, then its N fragments in order joined by single spaces. The opening fragment is trimmed of spaces only. Nothing else in the state changes. |
| CanonicalizerFacts.InsertDiscarded | phpmyadmin2mysqldump.py:82-89 | In an open `INSERT`, a line with an empty `VALUES;` empties the buffer, ends the statement and writes nothing. |
| CanonicalizerFacts.EmptyInsertDropped | phpmyadmin2mysqldump.py:140-145 | A multi-line `INSERT` ending in an empty `VALUES;` leaves the state exactly as before it started. |
| CanonicalizerFacts.AlterBlockEnds | phpmyadmin2mysqldump.py:105-126 | In alter mode, a line that is neither `ADD` nor `MODIFY` has exactly the effect it would have at the top level, so it is not lost. |
| CanonicalizerFacts.StepDeclares | sconv.py:128-131 | A step appends to `table_order` exactly the name of its line when that line is a `CREATE TABLE` line handled at the top level, and nothing otherwise. |
| CanonicalizerFacts.TableOrderDeclared | sconv.py:128-131 | After a run, `table_order` is the order before it followed by the names of the `CREATE TABLE` lines handled at the top level, one per line, in input order. |
| CanonicalizerFacts.BlocksFollowDeclarations | sconv.py:128-159 | The converted dump opens with one `CREATE TABLE` block per `CREATE TABLE` line handled at the top level, in input order, each with its table's final body. |
| CanonicalizerFacts.ModifyReplacesFirstMatch | sconv.py:118-124 | When every body line before line `i` names another column and line `i` names the clause's column, `MODIFY` replaces line `i` with a space, the clause and a comma, and changes nothing else. |
| CanonicalizerFacts.ModifyRaisesAtFirstUnnamed | sconv.py:120-121 | When every body line before line `i` names another column and line `i` has no quoted name, `MODIFY` raises with line `i`. |
| Canonicalizer.CreateBlock | sconv.py:159 | A block is the opening line with the quoted table name, then the body lines joined by newlines, then a closing `);` line. |
| Translator.Flush | sconv.py:263-268 | Writing the pending line writes nothing when it is empty. Otherwise it writes the line bare if no column of the table has been written yet, and with a leading comma if one has. Only the first-column flag and the output change. |
| Translator.CloseTable | sconv.py:225-235 | At the table's close the pending line is flushed first, then `);` is written. The table is left and the pending line cleared. |
| Translator.ColumnLine | sconv.py:250-269 | A column line flushes the previous pending line and becomes the new one in its rewritten form. It sets the auto-increment flag when it names `auto_increment`. |
| Translator.AddIndex | sconv.py:290-292 | A `KEY` line appends exactly one `CREATE INDEX "<t>_<name>" ON "<t>" (<cols>);` statement to the current table's deferred text. It creates that text if missing and leaves other tables alone. |
| Translator.IndexStatement | sconv.py:292 | The statement starts with `CREATE INDEX "<t>_<name>" ON "<t>" (`, holds the column list, and ends with `);` and a newline. |
| Translator.IndexName | sconv.py:282-285 | The index name is empty exactly when no backtick is followed by a non-backtick character, and never contains a backtick. |
| Translator.IndexColumns | sconv.py:286-289 | The column list is empty exactly when no `(` is followed by a character other than a parenthesis, and never contains a parenthesis. |
| Translator.KeyLine | sconv.py:279-292 | A `  KEY` line writes nothing and only extends the current table's deferred index text, keeping every other table's. The `);` form is written as it stands and leaves the index text alone. Nothing else in the state changes. |
| Translator.TableLine | sconv.py:225-294 | Inside a table the output only grows and the table name stays. The run aborts exactly on an indented `FULLTEXT KEY` line that is not a close, keeping what was already written. |
| Translator.TopLevel | sconv.py:295-317 | Outside a table a comment changes nothing. An `INSERT` line is written once, unescaped, and clears the pending line. `CREATE TABLE` is written, names the table and opens it with the auto-increment flag off and the first-column flag on. Anything else changes nothing. |
| Translator.Step | sconv.py:207-317 | One iteration only appends to the output. It can only fail inside a table, and then carries the output written so far. |
| Translator.Run | sconv.py:207-317 | The output of the loop only grows, and an abort keeps everything written before it. |
| Translator.Translate | sconv.py:189-321 | The script starts with the three header lines. Then comes the loop's output, then each table's deferred index text once, in strictly ascending table-name order, and finally `END TRANSACTION;`. If the loop aborts, the conversion aborts with the same error, whose output so far starts with the header. |
| Translator.IndexTexts | sconv.py:319-320 | The deferred index text of each listed table, in list order. |
| Ordering.SortedKeys | sconv.py:319 | `sorted(keys.keys())`: every key exactly once, in strictly ascending order under Python's string comparison. |
| Ordering.LexLeTotal | sconv.py:319 | Python's string comparison, `LexLe` (code point by code point, a proper prefix first), relates any two strings one way or the other. |
| Ordering.LexLeAntisymmetric | sconv.py:319 | Two strings that each sort no later than the other are equal. |
| Ordering.LexLeTransitive | sconv.py:319 | Python's string comparison is transitive. |
| TranslatorFacts.TableOutput | sconv.py:225-278 | However column, `PRIMARY KEY`, `KEY` and unindented lines mix in a table body, the table's output is its non-empty pending lines, in order. A `PRIMARY KEY` line is a column only until an `auto_increment` column has been seen. The first line is bare if no column has been written yet, every later one has a comma prefix, and `);` follows. |
| TranslatorFacts.CommaListJoins | sconv.py:263-278 | The flushed columns read as the non-empty rewritten column lines joined by commas, led by one comma only when a column was already out. |
| TranslatorFacts.TableTranslated | sconv.py:308-317 | A whole table from its `CREATE TABLE` line writes that line, then its column list with the first column bare, then `);`. The auto-increment flag starts off, so `PRIMARY KEY` lines count as columns until the first `auto_increment` column. |
| TranslatorFacts.KeyLineDeferred | sconv.py:270-292 | A `  KEY` line writes nothing of its own. It flushes the pending line, clears it, and adds one index statement to the current table's deferred text. |
| TranslatorFacts.BodyStep | sconv.py:237-278 | Each column, `PRIMARY KEY`, `KEY` or unindented body line leaves the table open. It raises the auto-increment flag exactly when it is a column naming `auto_increment`. It changes the output plus the pending line's eventual text exactly by its own contribution to the column list. |
| TranslatorFacts.PrimaryKeyLineHeld | sconv.py:244-270 | Before any `auto_increment` column, a `PRIMARY KEY` line the key test does not match is flushed and held like any column line. |
| TranslatorFacts.UnindentedLineIgnored | sconv.py:237-239 | Inside a table, a line not starting with two spaces changes nothing. |
| TranslatorFacts.TableCloseFlushes | sconv.py:225-235 | The closing line of a table flushes the pending line before writing `);`. |
| TranslatorFacts.FirstColumnFlagRaisedOnlyByCreate | sconv.py:308-316 | Only a top-level `CREATE TABLE` line raises the first-column flag. No other step sets it again once it is down. |
| TranslatorFacts.AutoIncrementRewritten | sconv.py:252-254 | A column naming `auto_increment` sets the flag, and its pending text is the column rewrite applied to the auto-increment rewrite. |
| TranslatorFacts.AutoIncrementPersists | sconv.py:244-254 | Once set, the auto-increment flag stays set, and the table stays open, until a line closes the table. |
| TranslatorFacts.PrimaryKeyLineDropped | sconv.py:244-246 | With the auto-increment flag set, an indented line naming `PRIMARY KEY` changes nothing. |
| TranslatorFacts.PrimaryKeyDroppedAfterAutoIncrement | sconv.py:244-254 | After an `auto_increment` column, any later line of the same table that names `PRIMARY KEY` is dropped, however many lines lie between. |
| TranslatorFacts.StepKeepsKeys | sconv.py:290-292 | No step removes a table's deferred index text or rewrites what it already holds. |
| TranslatorFacts.RunKeepsKeys | sconv.py:290-320 | Deferred index text survives to the end of the loop, so the final writes emit it. |
| TranslatorFacts.InsertWrittenOnce | sconv.py:300-307 | At the top level an `INSERT` line is written exactly once, with `\n`, `\r` and `\'` replaced by newline, carriage return and `"`. |
| TranslatorFacts.CommentWritesNothing | sconv.py:296-298 | At the top level a comment line changes nothing. |
| TranslatorFacts.FullTextKeyAborts | sconv.py:240-241 | An indented `FULLTEXT KEY` line aborts the run whatever follows. The output written before it is all that remains. |
| TranslatorFacts.RunAppend | sconv.py:206-317 | Running two blocks of lines is the same as running the first, then the second from where it left off. |
| Text.StripTrailingComma | sconv.py:207 | `re.sub(",$", "", line)` removes at most one comma. That comma is the last character or the one just before a final newline, and the line changes exactly when such a comma exists. |
| Text.FirstRun | sconv.py:282-289 | The first match of `re.findall` without its opening character: the leftmost opener followed by a non-stop character, then the longest run of non-stop characters after it. It is None exactly when no such opener exists. |
| Text.UnescapeWithoutBackslash | sconv.py:303-305 | A line with no backslash holds no escape sequence and is written unchanged. |
| Text.Replace | sconv.py:303-305 | `str.replace` never lengthens a line when the replacement is no longer than the pattern, and keeps its length when both are equally long. |
| Text.ReplaceUntouched | sconv.py:303-305 | Text in which the pattern's first character never occurs is copied unchanged, and the scan goes on behind it. |
| Text.ReplaceOccurrence | sconv.py:303-305 | When no character in front of an occurrence of the pattern is the pattern's first character, that occurrence is the first one the scan finds: it becomes the replacement, what precedes it is kept, and what follows is scanned anew. |
| Text.Unescape | sconv.py:303-305 | Unescaping never lengthens a line. |
| Text.UnescapeNewline | sconv.py:303 | The first escape `\n` of a line becomes a newline; the text before it is kept and the rest is unescaped in turn. |
| Text.UnescapeReturn | sconv.py:304 | The first escape `\r` of a line becomes a carriage return; the text before it is kept and the rest is unescaped in turn. |
| Text.UnescapeQuote | sconv.py:305 | The first escape `\'` of a line becomes a double quote; the text before it is kept and the rest is unescaped in turn. |
| Text.UnescapeOtherPair | sconv.py:303-305 | A backslash before any character other than `n`, `r`, `'` or a backslash is kept as it stands, with the character after it. |
| Text.LStrip | sconv.py:92 | `lstrip` removes exactly the longest prefix of the given characters. |
| Text.Strip | sconv.py:104 | `strip` never lengthens a line, leaves no character of the set at either end, leaves a line without such characters unchanged, and empties one made only of them. |
| Text.RStrip | sconv.py:92 | `rstrip` removes exactly the longest suffix of the given characters. |
| Text.JoinSnoc | sconv.py:95 | Joining one more part adds one separator and that part at the end. |
| Text.Join | sconv.py:95 | `join` of no parts is empty. Otherwise the result starts with the first part, and its length is the parts' total length plus one separator between each two parts. |

## Left out

- Command-line handling, stdin detection, the temporary `output/`
  directory, opening, unlinking and removing files, echoing and the final
  `done`. Input is a sequence of lines and output a sequence of chunks. The
  intermediate data file of stage A is its `data` sequence. Re-reading that
  file line by line before copying it yields the same text.
- Python regular expression semantics. Every expression is an abstract
  classifier or rewrite, so the column rewrite chain (`sconv.py:255-262`) and
  the `re.I` passed as the count argument at `sconv.py:243` and
  `sconv.py:257` are not modelled.
- The trigger and view branches (`sconv.py:208-222`) cannot be reached:
  `in_trigger` and `in_view` start false and nothing sets them. They are
  omitted, together with the unused expressions at `sconv.py:181-184`.
- The `re.sub(".+KEY", "  KEY")` at `sconv.py:241` lacks its string
  argument, so it raises on every `  FULLTEXT KEY` line. It is modelled as
  that abort, not as the rewrite it may have been meant to be.
- The unused `apk_regx` (`sconv.py:43`, `phpmyadmin2mysqldump.py:24`).
- Idempotence or any round trip of stage B: the code promises none.
- Character encodings. Strings are sequences of characters.
- Text.Unescape: the lemmas describe a line piece by piece up to its first
  backslash, except when that backslash is followed by another backslash.
  Python's chained `replace` then does not read the pair as an escaped
  backslash, and its result there is left uncharacterised.
- `table_order` and `table_defs` are module-level globals in both files, so
  a second call in the same process would see the first call's tables. The
  model starts every run from empty tables.
- `cur_table_name` and `prev` start as `None` in the source. The model
  starts them as `""`: nothing reads `cur_table_name` before it is set, and
  every test of `prev` treats `None` and `""` alike.
- An `ALTER TABLE` line on an unknown table raises nothing by itself: it
  only sets the current table name. A following `ADD` raises KeyError
  (IndexError on an empty body), and so does a `MODIFY` with a quoted column
  name (KeyError). The model does the same.
- Inside a stage B table, the `);` case of the key test (`sconv.py:279-280`)
  is modelled as written. A line that reaches that test starts with two
  spaces, so the case cannot occur for the source's actual expression.

=== FILE: canonicalizer.dfy ===
/**
 * Stage A: the phpMyAdmin export to mysqldump form (`phpmyadmin_to_mysql`,
 * sconv.py:53-178, and the module-level copy in phpmyadmin2mysqldump.py:74-160).
 *
 * One pass folds `Step` over the input lines. Table bodies are collected per
 * table name, `ALTER TABLE` blocks edit the collected bodies (`ADD` appends a
 * line, `MODIFY` replaces one in place), multi-line `INSERT`s are joined into
 * one record. At the end every table is written as one `CREATE TABLE` block in
 * the order of their declarations, a redeclared name again, followed by the
 * data records in input order.
 */
module Canonicalizer {
  import opened Wrappers
  import opened Text
  import opened Classify

  /** The exceptions that abort a run. */
  datatype Error =
    | AddToUnknownTable(table: string)              // KeyError on `table_defs[cur_table_name]`
    | AddToEmptyTable(table: string)                // IndexError on `[-1]` of an empty body
    | ModifyUnknownTable(table: string)             // KeyError on `table_defs[cur_table_name]`
    | ModifyUnnamedLine(table: string, line: string) // `col_regx.match(tline)` is None: AttributeError

  /**
   * The loop's variables. `data` holds, in order, the chunks written to the
   * intermediate data file; `curTable` starts as "" where the source has None,
   * which no branch reads before a table or alter line sets it.
   */
  datatype State = State(
    inTableDef: bool,
    inAlterTable: bool,
    inInsert: bool,
    curTable: string,
    insertBuf: seq<string>,
    tableOrder: seq<string>,
    tableDefs: map<string, seq<string>>,
    data: seq<string>)

  const Start: State := State(false, false, false, "", [], [], map[], [])

  /** No block is open. */
  predicate Scanning(s: State) {
    !s.inTableDef && !s.inAlterTable && !s.inInsert
  }

  /**
   * What every reachable state satisfies: the defined tables are exactly
   * the names in `tableOrder`, the open table body exists, at most one of
   * the three flags is set, and the insert buffer is empty outside an insert.
   */
  predicate Valid(s: State) {
    && (forall t :: t in s.tableDefs ==> t in s.tableOrder)
    && (forall t :: t in s.tableOrder ==> t in s.tableDefs)
    && (s.inTableDef ==> s.curTable in s.tableDefs)
    && (s.inInsert ==> !s.inTableDef && !s.inAlterTable)
    && !(s.inTableDef && s.inAlterTable)
    && (!s.inInsert ==> s.insertBuf == [])
  }

  lemma StartValid()
    ensures Valid(Start) && Scanning(Start)
  {
  }

  /** A line the loop looks at: neither empty nor a comment. */
  predicate Live(p: Patterns, line: string) {
    |line| > 0 && !p.isComment(line)
  }

  /** `line.lstrip(" ").rstrip("\n\r")`: the first fragment of an `INSERT`. */
  function OpeningFragment(line: string): string {
    RStrip(LStrip(line, {' '}), {'\n', '\r'})
  }

  /** `line.lstrip(" \t").rstrip("\n\r")`: a later fragment of an `INSERT`. */
  function ContinuationFragment(line: string): string {
    RStrip(LStrip(line, {' ', '\t'}), {'\n', '\r'})
  }

  /** The record a multi-line `INSERT` becomes: a newline, then the fragments joined by single spaces. */
  function Record(fragments: seq<string>): string {
    "\n" + Join(fragments, " ")
  }

  /** A table body line as stored: `line.strip("\n")`. */
  function BodyLine(line: string): string {
    Strip(line, {'\n'})
  }

  /** One line of an open `INSERT`. */
  function InsertLine(p: Patterns, s: State, line: string): (r: State)
    requires Valid(s) && s.inInsert
    ensures Valid(r)
    ensures r.tableOrder == s.tableOrder && r.tableDefs == s.tableDefs && r.curTable == s.curTable
    ensures p.isEmptyValues(line) ==> r.data == s.data && !r.inInsert
    ensures !p.isEmptyValues(line) && p.isInsertClose(line) ==>
      !r.inInsert && r.data == s.data + [Record(s.insertBuf + [ContinuationFragment(line)])]
    ensures !p.isEmptyValues(line) && !p.isInsertClose(line) ==>
      r.inInsert && r.data == s.data && r.insertBuf == s.insertBuf + [ContinuationFragment(line)]
  {
    if p.isEmptyValues(line) then
      s.(inInsert := false, insertBuf := [])
    else
      var buf := s.insertBuf + [ContinuationFragment(line)];
      if p.isInsertClose(line) then
        s.(inInsert := false, insertBuf := [], data := s.data + [Record(buf)])
      else
        s.(insertBuf := buf)
  }

  /** One line of an open table body: the closing line ends it, every other line is stored. */
  function TableLine(p: Patterns, s: State, line: string): (r: State)
    requires Valid(s) && s.inTableDef
    ensures Valid(r)
    ensures r.tableOrder == s.tableOrder && r.data == s.data && r.tableDefs.Keys == s.tableDefs.Keys
    ensures p.isTableClose(line) ==> Scanning(r) && r.tableDefs == s.tableDefs
    ensures !p.isTableClose(line) ==>
      && r.inTableDef
      && r.tableDefs[s.curTable] == s.tableDefs[s.curTable] + [BodyLine(line)]
      && forall t :: t in s.tableDefs && t != s.curTable ==> r.tableDefs[t] == s.tableDefs[t]
  {
    if p.isTableClose(line) then
      s.(inTableDef := false)
    else
      s.(tableDefs := s.tableDefs[s.curTable := s.tableDefs[s.curTable] + [BodyLine(line)]])
  }

  /**
   * The body after an `ADD` clause: the old last line gains a comma and the
   * clause, indented by two spaces, becomes the new last line.
   */
  function AppendColumn(body: seq<string>, clause: string): (r: seq<string>)
    requires |body| > 0
    ensures |r| == |body| + 1
    ensures r[|body| - 1] == body[|body| - 1] + ","
    ensures r[|body|] == "  " + clause
    ensures forall i :: 0 <= i < |body| - 1 ==> r[i] == body[i]
  {
    body[..|body| - 1] + [body[|body| - 1] + ",", "  " + clause]
  }

  /** An `ADD` clause of an alter block on table `s.curTable`. */
  function ApplyAdd(s: State, clause: string): (r: Result<State, Error>)
    requires Valid(s)
    ensures r.Failure? <==> s.curTable !in s.tableDefs || |s.tableDefs[s.curTable]| == 0
    ensures r.Failure? ==> r.error == (if s.curTable !in s.tableDefs then AddToUnknownTable(s.curTable) else AddToEmptyTable(s.curTable))
    ensures r.Success? ==>
      && Valid(r.value)
      && r.value.tableOrder == s.tableOrder && r.value.data == s.data
      && r.value.tableDefs.Keys == s.tableDefs.Keys
      && r.value.tableDefs[s.curTable] == AppendColumn(s.tableDefs[s.curTable], clause)
      && (forall t :: t in s.tableDefs && t != s.curTable ==> r.value.tableDefs[t] == s.tableDefs[t])
    ensures r.Success? ==> r.value == s.(tableDefs := r.value.tableDefs)
  {
    if s.curTable !in s.tableDefs then Failure(AddToUnknownTable(s.curTable))
    else if |s.tableDefs[s.curTable]| == 0 then Failure(AddToEmptyTable(s.curTable))
    else Success(s.(tableDefs := s.tableDefs[s.curTable := AppendColumn(s.tableDefs[s.curTable], clause)]))
  }

  /** Every line of `lines` has a quoted column name and it is not `col`. */
  predicate NamedOther(p: Patterns, lines: seq<string>, col: string) {
    forall j :: 0 <= j < |lines| ==> p.columnName(lines[j]).Some? && p.columnName(lines[j]) != Some(col)
  }

  /** How the scan of a body for a column name ends. */
  datatype ColumnSearch = Found(index: nat) | Absent | Unnamed(index: nat)

  /**
   * The `for i, tline in enumerate(...)` scan of `MODIFY`: it stops at the
   * first line whose column name is `col`, or raises at the first line that
   * has no column name at all.
   */
  function FindColumn(p: Patterns, body: seq<string>, col: string): (r: ColumnSearch)
    ensures r.Found? ==> r.index < |body| && p.columnName(body[r.index]) == Some(col) && NamedOther(p, body[..r.index], col)
    ensures r.Unnamed? ==> r.index < |body| && p.columnName(body[r.index]).None? && NamedOther(p, body[..r.index], col)
    ensures r.Absent? <==> NamedOther(p, body, col)
    decreases |body|
  {
    if |body| == 0 then Absent
    else match p.columnName(body[0])
      case None => Unnamed(0)
      case Some(c) =>
        if c == col then Found(0)
        else
          var rest := FindColumn(p, body[1..], col);
          assert forall j :: 1 <= j < |body| ==> body[j] == body[1..][j - 1];
          match rest
          case Found(i) =>
            assert body[..i + 1][1..] == body[1..][..i];
            Found(i + 1)
          case Unnamed(i) =>
            assert body[..i + 1][1..] == body[1..][..i];
            Unnamed(i + 1)
          case Absent => Absent
  }

  /** The line a `MODIFY` clause leaves in the body: a space, the clause, a comma. */
  function ModifiedLine(clause: string): string {
    " " + clause + ","
  }

  /**
   * A `MODIFY` clause of an alter block on table `s.curTable`. A clause
   * without a quoted column name does nothing; otherwise the first body line
   * naming the same column is replaced where it stands.
   */
  function ApplyModify(p: Patterns, s: State, clause: string): (r: Result<State, Error>)
    requires Valid(s)
    ensures p.columnName(clause).None? ==> r == Success(s)
    ensures p.columnName(clause).Some? && s.curTable !in s.tableDefs ==> r == Failure(ModifyUnknownTable(s.curTable))
    ensures r.Failure? && r.error.ModifyUnnamedLine? ==>
      s.curTable in s.tableDefs && p.columnName(r.error.line).None? && r.error.line in s.tableDefs[s.curTable]
    ensures r.Success? ==>
      && Valid(r.value)
      && r.value.tableOrder == s.tableOrder && r.value.data == s.data
      && r.value.tableDefs.Keys == s.tableDefs.Keys
      && (forall t :: t in s.tableDefs && t != s.curTable ==> r.value.tableDefs[t] == s.tableDefs[t])
    ensures r.Success? && s.curTable in s.tableDefs ==>
      var old_ := s.tableDefs[s.curTable];
      var new_ := r.value.tableDefs[s.curTable];
      && |new_| == |old_|
      && (new_ == old_ || exists i :: (0 <= i < |old_| && p.columnName(clause) == p.columnName(old_[i])
            && new_ == old_[i := ModifiedLine(clause)] && NamedOther(p, old_[..i], p.columnName(clause).value)))
    ensures p.columnName(clause).Some? && s.curTable in s.tableDefs && NamedOther(p, s.tableDefs[s.curTable], p.columnName(clause).value)
      ==> r == Success(s)
    ensures r.Success? ==> r.value == s.(tableDefs := r.value.tableDefs)
    ensures p.columnName(clause).Some? && s.curTable in s.tableDefs ==>
      var body := s.tableDefs[s.curTable];
      match FindColumn(p, body, p.columnName(clause).value)
      case Found(i) => r == Success(s.(tableDefs := s.tableDefs[s.curTable := body[i := ModifiedLine(clause)]]))
      case Unnamed(i) => r == Failure(ModifyUnnamedLine(s.curTable, body[i]))
      case Absent => r == Success(s)
  {
    match p.columnName(clause)
    case None => Success(s)
    case Some(col) =>
      if s.curTable !in s.tableDefs then Failure(ModifyUnknownTable(s.curTable))
      else
        var body := s.tableDefs[s.curTable];
        match FindColumn(p, body, col)
        case Found(i) => Success(s.(tableDefs := s.tableDefs[s.curTable := body[i := ModifiedLine(clause)]]))
        case Absent => Success(s)
        case Unnamed(i) => Failure(ModifyUnnamedLine(s.curTable, body[i]))
  }

  /**
   * A line handled at the top level: `CREATE TABLE` opens a body (and names
   * the table again in `tableOrder` even if it was seen before), `ALTER TABLE`
   * opens an alter block, and an `INSERT` is dropped (empty `VALUES`),
   * written at once (closed on the same line) or buffered.
   */
  function TopLevel(p: Patterns, s: State, line: string): (r: State)
    requires Valid(s) && Scanning(s)
    ensures Valid(r)
    ensures s.tableOrder <= r.tableOrder && s.data <= r.data
    ensures p.tableOpen(line).Some? ==>
      var t := p.tableOpen(line).value;
      && r.tableOrder == s.tableOrder + [t] && r.tableDefs == s.tableDefs[t := []]
      && r.inTableDef && r.curTable == t && r.data == s.data
    ensures p.tableOpen(line).None? && p.alterOpen(line).Some? ==>
      r == s.(inAlterTable := true, curTable := p.alterOpen(line).value)
    ensures p.tableOpen(line).None? && p.alterOpen(line).None? ==> r.tableOrder == s.tableOrder && r.tableDefs == s.tableDefs
    ensures p.tableOpen(line).None? && p.alterOpen(line).None? && (!p.isInsertOpen(line) || p.isEmptyValues(line)) ==> r == s
    ensures p.tableOpen(line).None? && p.alterOpen(line).None? && p.isInsertOpen(line) && !p.isEmptyValues(line) ==>
      if p.isInsertClose(line) then r == s.(data := s.data + [line])
      else r == s.(inInsert := true, insertBuf := [OpeningFragment(line)])
  {
    match p.tableOpen(line)
    case Some(t) =>
      s.(curTable := t, tableOrder := s.tableOrder + [t], tableDefs := s.tableDefs[t := []], inTableDef := true)
    case None =>
      match p.alterOpen(line)
      case Some(t) => s.(curTable := t, inAlterTable := true)
      case None =>
        if !p.isInsertOpen(line) || p.isEmptyValues(line) then s
        else if !p.isInsertClose(line) then s.(insertBuf := s.insertBuf + [OpeningFragment(line)], inInsert := true)
        else s.(data := s.data + [line])
  }

  /**
   * One line of an alter block: `ADD`, then `MODIFY`; any other line ends the
   * block and is handled at the top level in the same step.
   */
  function AlterLine(p: Patterns, s: State, line: string): (r: Result<State, Error>)
    requires Valid(s) && s.inAlterTable
    ensures p.addClause(line).Some? ==> r == ApplyAdd(s, p.addClause(line).value)
    ensures p.addClause(line).None? && p.modifyClause(line).Some? ==> r == ApplyModify(p, s, p.modifyClause(line).value)
    ensures p.addClause(line).None? && p.modifyClause(line).None? ==> r == Success(TopLevel(p, s.(inAlterTable := false), line))
  {
    match p.addClause(line)
    case Some(clause) => ApplyAdd(s, clause)
    case None =>
      match p.modifyClause(line)
      case Some(clause) => ApplyModify(p, s, clause)
      case None => Success(TopLevel(p, s.(inAlterTable := false), line))
  }

  /** One iteration of the loop (sconv.py:77-150). */
  function Step(p: Patterns, s: State, line: string): (r: Result<State, Error>)
    requires Valid(s)
    ensures r.Success? ==> Valid(r.value)
    ensures r.Success? ==> s.tableOrder <= r.value.tableOrder && s.data <= r.value.data
    ensures r.Failure? ==> s.inAlterTable && Live(p, line) && (p.addClause(line).Some? || p.modifyClause(line).Some?)
    ensures !Live(p, line) ==> r == Success(s)
  {
    if |line| == 0 || p.isComment(line) then Success(s)
    else if s.inInsert then Success(InsertLine(p, s, line))
    else if s.inTableDef then Success(TableLine(p, s, line))
    else if s.inAlterTable then AlterLine(p, s, line)
    else Success(TopLevel(p, s, line))
  }

  /** The loop over all lines from state `s`; the first exception ends the run. */
  function Run(p: Patterns, s: State, lines: seq<string>): (r: Result<State, Error>)
    requires Valid(s)
    ensures r.Success? ==> Valid(r.value)
    ensures r.Success? ==> s.tableOrder <= r.value.tableOrder && s.data <= r.value.data
    decreases |lines|
  {
    if |lines| == 0 then Success(s)
    else
      match Step(p, s, lines[0])
      case Failure(e) => Failure(e)
      case Success(next) => Run(p, next, lines[1..])
  }

  /**
   * `"CREATE TABLE `{}` (\n{}\n);\n".format(name, "\n".join(body))`: the
   * quoted name in an opening line, the body lines joined by newlines, and a
   * closing `);` line.
   */
  function CreateBlock(name: string, body: seq<string>): (r: string)
    ensures StartsWith(r, "CREATE TABLE `" + name + "` (\n")
    ensures |r| == 22 + |name| + |Join(body, "\n")|
    ensures r[18 + |name|..|r| - 4] == Join(body, "\n")
    ensures r[|r| - 4..] == "\n);\n"
  {
    "CREATE TABLE `" + name + "` (\n" + Join(body, "\n") + "\n);\n"
  }

  function CreateBlocks(order: seq<string>, defs: map<string, seq<string>>): (r: seq<string>)
    requires forall t :: t in order ==> t in defs
    ensures |r| == |order|
    ensures forall i :: 0 <= i < |order| ==> r[i] == CreateBlock(order[i], defs[order[i]])
    decreases |order|
  {
    if |order| == 0 then []
    else [CreateBlock(order[0], defs[order[0]])] + CreateBlocks(order[1..], defs)
  }

  /**
   * The final dump (sconv.py:158-162): one `CREATE TABLE` block per entry of
   * `tableOrder`, in that order and each with the table's final body, then
   * the data file's records unchanged.
   */
  function Emit(s: State): (r: seq<string>)
    requires Valid(s)
    ensures |r| == |s.tableOrder| + |s.data|
    ensures forall i :: 0 <= i < |s.tableOrder| ==> r[i] == CreateBlock(s.tableOrder[i], s.tableDefs[s.tableOrder[i]])
    ensures r[|s.tableOrder|..] == s.data
  {
    CreateBlocks(s.tableOrder, s.tableDefs) + s.data
  }

  /** The whole conversion: the loop from the initial state, then the final dump. */
  function Convert(p: Patterns, lines: seq<string>): (r: Result<seq<string>, Error>)
    ensures r.Failure? <==> Run(p, Start, lines).Failure?
    ensures r.Failure? ==> r.error == Run(p, Start, lines).error
    ensures r.Success? ==>
      var s := Run(p, Start, lines).value;
      && (forall t :: t in s.tableOrder <==> t in s.tableDefs)
      && |r.value| == |s.tableOrder| + |s.data|
      && (forall i :: 0 <= i < |s.tableOrder| ==> r.value[i] == CreateBlock(s.tableOrder[i], s.tableDefs[s.tableOrder[i]]))
      && r.value[|s.tableOrder|..] == s.data
  {
    StartValid();
    match Run(p, Start, lines)
    case Failure(e) => Failure(e)
    case Success(s) => Success(Emit(s))
  }
}

=== FILE: canonicalizer_facts.dfy ===
/**
 * Properties of stage A over whole runs: how a table definition, a
 * multi-line `INSERT` and an alter block travel through the loop, that
 * skipped lines leave no trace, and where the emitted table names come from.
 */
module CanonicalizerFacts {
  import opened Wrappers
  import opened Text
  import opened Classify
  import opened Canonicalizer

  /** The stored form of each line of a table body, in order. */
  function BodyLines(lines: seq<string>): seq<string>
    decreases |lines|
  {
    if |lines| == 0 then [] else [BodyLine(lines[0])] + BodyLines(lines[1..])
  }

  /** The buffered form of each continuation line of an `INSERT`, in order. */
  function Fragments(lines: seq<string>): seq<string>
    decreases |lines|
  {
    if |lines| == 0 then [] else [ContinuationFragment(lines[0])] + Fragments(lines[1..])
  }

  /** The lines the loop does not skip, in order. */
  function LiveLines(p: Patterns, lines: seq<string>): seq<string>
    decreases |lines|
  {
    if |lines| == 0 then []
    else (if Live(p, lines[0]) then [lines[0]] else []) + LiveLines(p, lines[1..])
  }

  /** A run that does not fail on its first line continues from the state that line produced. */
  lemma RunFirst(p: Patterns, s: State, lines: seq<string>)
    requires Valid(s) && |lines| > 0 && Step(p, s, lines[0]).Success?
    ensures Run(p, s, lines) == Run(p, Step(p, s, lines[0]).value, lines[1..])
  {
  }

  /** Empty lines and comment lines are skipped in every state: dropping them changes nothing. */
  lemma {:induction false} SkippedLinesTransparent(p: Patterns, s: State, lines: seq<string>)
    requires Valid(s)
    ensures Run(p, s, lines) == Run(p, s, LiveLines(p, lines))
    decreases |lines|
  {
    if |lines| > 0 {
      var rest := LiveLines(p, lines[1..]);
      if !Live(p, lines[0]) {
        assert LiveLines(p, lines) == [] + rest == rest;
        RunFirst(p, s, lines);
        SkippedLinesTransparent(p, s, lines[1..]);
      } else {
        assert LiveLines(p, lines) == [lines[0]] + rest;
        assert ([lines[0]] + rest)[0] == lines[0];
        assert ([lines[0]] + rest)[1..] == rest;
        match Step(p, s, lines[0])
        case Failure(e) =>
        case Success(next) =>
          SkippedLinesTransparent(p, next, lines[1..]);
      }
    }
  }

  /** A non-closing line of an open body is appended to it, stripped of newlines. */
  lemma TableLineStored(p: Patterns, s: State, line: string)
    requires Valid(s) && s.inTableDef
    requires Live(p, line) && !p.isTableClose(line)
    ensures Step(p, s, line) ==
      Success(s.(tableDefs := s.tableDefs[s.curTable := s.tableDefs[s.curTable] + [BodyLine(line)]]))
  {
    assert Step(p, s, line) == Success(TableLine(p, s, line));
  }

  /** The closing line of an open body ends it and stores nothing. */
  lemma TableClosed(p: Patterns, s: State, close: string)
    requires Valid(s) && s.inTableDef
    requires Live(p, close) && p.isTableClose(close)
    ensures Run(p, s, [close]) == Success(s.(inTableDef := false))
  {
    assert Step(p, s, close) == Success(TableLine(p, s, close));
    RunFirst(p, s, [close]);
  }

  lemma AppendShift(a: seq<string>, x: string, b: seq<string>)
    ensures (a + [x]) + b == a + ([x] + b)
  {
  }

  lemma UpdateTwice(m: map<string, seq<string>>, k: string, a: seq<string>, b: seq<string>)
    ensures m[k := a][k := b] == m[k := b]
  {
  }

  /** Inside a table body, every non-closing line is stored as it stands, minus its newlines. */
  lemma {:induction false} TableBodyCollected(p: Patterns, s: State, body: seq<string>, close: string)
    requires Valid(s) && s.inTableDef
    requires forall i :: 0 <= i < |body| ==> Live(p, body[i]) && !p.isTableClose(body[i])
    requires Live(p, close) && p.isTableClose(close)
    ensures Run(p, s, body + [close]) ==
      Success(s.(inTableDef := false, tableDefs := s.tableDefs[s.curTable := s.tableDefs[s.curTable] + BodyLines(body)]))
    decreases |body|
  {
    var cur := s.curTable;
    if |body| == 0 {
      assert body == [];
      assert body + [close] == [close];
      TableClosed(p, s, close);
      assert BodyLines(body) == [];
      assert s.tableDefs[cur] + [] == s.tableDefs[cur];
      assert s.tableDefs[cur := s.tableDefs[cur]] == s.tableDefs;
      assert s.(inTableDef := false, tableDefs := s.tableDefs[cur := s.tableDefs[cur] + BodyLines(body)]) == s.(inTableDef := false);
    } else {
      var next := s.(tableDefs := s.tableDefs[cur := s.tableDefs[cur] + [BodyLine(body[0])]]);
      TableLineStored(p, s, body[0]);
      var lines := body + [close];
      assert lines[0] == body[0];
      assert lines[1..] == body[1..] + [close];
      RunFirst(p, s, lines);
      TableBodyCollected(p, next, body[1..], close);
      AppendShift(s.tableDefs[cur], BodyLine(body[0]), BodyLines(body[1..]));
      UpdateTwice(s.tableDefs, cur, s.tableDefs[cur] + [BodyLine(body[0])], s.tableDefs[cur] + BodyLines(body));
    }
  }

  /** A `CREATE TABLE` line at the top level opens an empty body for its table. */
  lemma TableOpened(p: Patterns, s: State, open: string)
    requires Valid(s) && Scanning(s)
    requires Live(p, open) && p.tableOpen(open).Some?
    ensures var t := p.tableOpen(open).value;
      Step(p, s, open) ==
        Success(s.(curTable := t, tableOrder := s.tableOrder + [t], tableDefs := s.tableDefs[t := []], inTableDef := true))
  {
    assert Step(p, s, open) == Success(TopLevel(p, s, open));
  }

  lemma EmptyPrefix(a: seq<string>)
    ensures [] + a == a
  {
  }

  /**
   * A `CREATE TABLE` line, body lines and the closing line, seen at the top
   * level: the name is appended to `tableOrder` (again, if it was seen
   * before) and the table's body becomes exactly the stored body lines,
   * replacing any earlier body of the same name.
   */
  lemma TableDefinition(p: Patterns, s: State, open: string, body: seq<string>, close: string)
    requires Valid(s) && Scanning(s)
    requires Live(p, open) && p.tableOpen(open).Some?
    requires forall i :: 0 <= i < |body| ==> Live(p, body[i]) && !p.isTableClose(body[i])
    requires Live(p, close) && p.isTableClose(close)
    ensures var t := p.tableOpen(open).value;
      Run(p, s, [open] + body + [close]) ==
        Success(s.(curTable := t, tableOrder := s.tableOrder + [t], tableDefs := s.tableDefs[t := BodyLines(body)]))
  {
    var t := p.tableOpen(open).value;
    var opened_ := s.(curTable := t, tableOrder := s.tableOrder + [t], tableDefs := s.tableDefs[t := []], inTableDef := true);
    TableOpened(p, s, open);
    var lines := [open] + body + [close];
    assert lines[0] == open;
    assert lines[1..] == body + [close];
    RunFirst(p, s, lines);
    TableBodyCollected(p, opened_, body, close);
    var defs := opened_.tableDefs[t := opened_.tableDefs[t] + BodyLines(body)];
    assert opened_.tableDefs[t] == [];
    EmptyPrefix(BodyLines(body));
    UpdateTwice(s.tableDefs, t, [], BodyLines(body));
    assert defs == s.tableDefs[t := BodyLines(body)];
    assert opened_.(inTableDef := false, tableDefs := defs)
      == s.(curTable := t, tableOrder := s.tableOrder + [t], tableDefs := defs);
  }

  /** A line that continues an open `INSERT` without ending it. */
  predicate Continuation(p: Patterns, line: string) {
    Live(p, line) && !p.isEmptyValues(line) && !p.isInsertClose(line)
  }

  /** A line that opens an `INSERT` at the top level and leaves it open. */
  predicate InsertOpener(p: Patterns, line: string) {
    && Live(p, line) && p.tableOpen(line).None? && p.alterOpen(line).None?
    && p.isInsertOpen(line) && !p.isEmptyValues(line) && !p.isInsertClose(line)
  }

  /** An `INSERT` left open on its first line starts the buffer with its trimmed fragment. */
  lemma InsertOpened(p: Patterns, s: State, first: string)
    requires Valid(s) && Scanning(s) && InsertOpener(p, first)
    ensures Step(p, s, first) == Success(s.(insertBuf := [OpeningFragment(first)], inInsert := true))
  {
    assert Step(p, s, first) == Success(TopLevel(p, s, first));
    assert s.insertBuf == [];
    assert s.insertBuf + [OpeningFragment(first)] == [OpeningFragment(first)];
  }

  /** A continuation line of an open `INSERT` adds its fragment to the buffer. */
  lemma InsertContinued(p: Patterns, s: State, line: string)
    requires Valid(s) && s.inInsert && Continuation(p, line)
    ensures Step(p, s, line) == Success(s.(insertBuf := s.insertBuf + [ContinuationFragment(line)]))
  {
    assert Step(p, s, line) == Success(InsertLine(p, s, line));
  }

  /** The closing line of an open `INSERT` flushes the buffer, with its own fragment, as one record. */
  lemma InsertClosed(p: Patterns, s: State, last: string)
    requires Valid(s) && s.inInsert
    requires Live(p, last) && !p.isEmptyValues(last) && p.isInsertClose(last)
    ensures Run(p, s, [last]) ==
      Success(s.(inInsert := false, insertBuf := [], data := s.data + [Record(s.insertBuf + [ContinuationFragment(last)])]))
  {
    assert Step(p, s, last) == Success(InsertLine(p, s, last));
    RunFirst(p, s, [last]);
  }

  /** From an open `INSERT`: continuation lines then a closing line flush the buffer as one record. */
  lemma {:induction false} InsertCompleted(p: Patterns, s: State, mids: seq<string>, last: string)
    requires Valid(s) && s.inInsert
    requires forall i :: 0 <= i < |mids| ==> Continuation(p, mids[i])
    requires Live(p, last) && !p.isEmptyValues(last) && p.isInsertClose(last)
    ensures Run(p, s, mids + [last]) ==
      Success(s.(inInsert := false, insertBuf := [], data := s.data + [Record(s.insertBuf + Fragments(mids + [last]))]))
    decreases |mids|
  {
    if |mids| == 0 {
      assert mids + [last] == [last];
      assert Fragments([last]) == [ContinuationFragment(last)];
      InsertClosed(p, s, last);
    } else {
      var next := s.(insertBuf := s.insertBuf + [ContinuationFragment(mids[0])]);
      InsertContinued(p, s, mids[0]);
      var lines := mids + [last];
      assert lines[0] == mids[0];
      assert lines[1..] == mids[1..] + [last];
      RunFirst(p, s, lines);
      InsertCompleted(p, next, mids[1..], last);
      assert Fragments(lines) == [ContinuationFragment(mids[0])] + Fragments(mids[1..] + [last]);
      AppendShift(s.insertBuf, ContinuationFragment(mids[0]), Fragments(mids[1..] + [last]));
    }
  }

  /**
   * A multi-line `INSERT` over N lines (an opener, N - 2 continuations, a
   * closing line) adds exactly one data record: a newline followed by the N
   * trimmed fragments, in order, joined by single spaces. Nothing else changes.
   */
  lemma MultiLineInsert(p: Patterns, s: State, first: string, mids: seq<string>, last: string)
    requires Valid(s) && Scanning(s)
    requires InsertOpener(p, first)
    requires forall i :: 0 <= i < |mids| ==> Continuation(p, mids[i])
    requires Live(p, last) && !p.isEmptyValues(last) && p.isInsertClose(last)
    ensures Run(p, s, [first] + mids + [last]) ==
      Success(s.(data := s.data + [Record([OpeningFragment(first)] + Fragments(mids + [last]))]))
  {
    var opened_ := s.(insertBuf := [OpeningFragment(first)], inInsert := true);
    InsertOpened(p, s, first);
    var lines := [first] + mids + [last];
    assert lines[0] == first;
    assert lines[1..] == mids + [last];
    RunFirst(p, s, lines);
    InsertCompleted(p, opened_, mids, last);
  }

  /** From an open `INSERT`: a line with an empty `VALUES` list discards the buffer and writes nothing. */
  lemma {:induction false} InsertDiscarded(p: Patterns, s: State, mids: seq<string>, last: string)
    requires Valid(s) && s.inInsert
    requires forall i :: 0 <= i < |mids| ==> Continuation(p, mids[i])
    requires Live(p, last) && p.isEmptyValues(last)
    ensures Run(p, s, mids + [last]) == Success(s.(inInsert := false, insertBuf := []))
    decreases |mids|
  {
    if |mids| == 0 {
      assert mids + [last] == [last];
    } else {
      var next := s.(insertBuf := s.insertBuf + [ContinuationFragment(mids[0])]);
      assert Step(p, s, mids[0]) == Success(next);
      assert (mids + [last])[0] == mids[0];
      assert (mids + [last])[1..] == mids[1..] + [last];
      InsertDiscarded(p, next, mids[1..], last);
    }
  }

  /** An `INSERT ... VALUES;` spread over several lines leaves the state exactly as it found it. */
  lemma EmptyInsertDropped(p: Patterns, s: State, first: string, mids: seq<string>, last: string)
    requires Valid(s) && Scanning(s)
    requires InsertOpener(p, first)
    requires forall i :: 0 <= i < |mids| ==> Continuation(p, mids[i])
    requires Live(p, last) && p.isEmptyValues(last)
    ensures Run(p, s, [first] + mids + [last]) == Success(s)
  {
    var opened_ := s.(insertBuf := [OpeningFragment(first)], inInsert := true);
    assert Step(p, s, first) == Success(opened_);
    var lines := [first] + mids + [last];
    assert lines[0] == first;
    assert lines[1..] == mids + [last];
    InsertDiscarded(p, opened_, mids, last);
  }

  /**
   * In an alter block, a line that is neither `ADD` nor `MODIFY` ends the
   * block and is handled in the same step exactly as a top-level line.
   */
  lemma AlterBlockEnds(p: Patterns, s: State, line: string)
    requires Valid(s) && s.inAlterTable
    requires Live(p, line) && p.addClause(line).None? && p.modifyClause(line).None?
    ensures Valid(s.(inAlterTable := false)) && Scanning(s.(inAlterTable := false))
    ensures Step(p, s, line) == Step(p, s.(inAlterTable := false), line)
  {
  }

  /**
   * The body after several `ADD` clauses in turn: every former line but the
   * last is kept, the former last line and each added clause but the last
   * gain a comma, and the last clause ends the body without one.
   */
  function AppendColumns(body: seq<string>, clauses: seq<string>): (r: seq<string>)
    requires |body| > 0
    ensures |r| == |body| + |clauses|
    ensures forall i :: 0 <= i < |body| - 1 ==> r[i] == body[i]
    ensures |clauses| == 0 ==> r == body
    ensures |clauses| > 0 ==> r[|body| - 1] == body[|body| - 1] + ","
    ensures forall i :: 0 <= i < |clauses| - 1 ==> r[|body| + i] == "  " + clauses[i] + ","
    ensures |clauses| > 0 ==> r[|r| - 1] == "  " + clauses[|clauses| - 1]
    decreases |clauses|
  {
    if |clauses| == 0 then body
    else
      var next := AppendColumn(body, clauses[0]);
      AppendColumns(next, clauses[1..])
  }

  /** The clauses of a block of `ADD` lines. */
  function AddClauses(p: Patterns, adds: seq<string>): (r: seq<string>)
    requires forall i :: 0 <= i < |adds| ==> p.addClause(adds[i]).Some?
    ensures |r| == |adds|
    ensures forall i :: 0 <= i < |adds| ==> r[i] == p.addClause(adds[i]).value
    decreases |adds|
  {
    if |adds| == 0 then [] else [p.addClause(adds[0]).value] + AddClauses(p, adds[1..])
  }

  /** In an open alter block, an `ADD` line on a table with a body appends its clause and changes nothing else. */
  lemma AddStep(p: Patterns, s: State, line: string)
    requires Valid(s) && s.inAlterTable && !s.inInsert && !s.inTableDef && Live(p, line) && p.addClause(line).Some?
    requires s.curTable in s.tableDefs && |s.tableDefs[s.curTable]| > 0
    ensures Step(p, s, line) ==
      Success(s.(tableDefs := s.tableDefs[s.curTable := AppendColumn(s.tableDefs[s.curTable], p.addClause(line).value)]))
  {
  }

  /**
   * An alter block stays open across its `ADD` lines, so every one of them
   * is applied to the same table, in order (sconv.py:107-113); nothing but
   * that table's body changes.
   */
  lemma {:induction false} AddBlock(p: Patterns, s: State, adds: seq<string>)
    requires Valid(s) && s.inAlterTable && !s.inInsert && !s.inTableDef
    requires s.curTable in s.tableDefs && |s.tableDefs[s.curTable]| > 0
    requires forall i :: 0 <= i < |adds| ==> Live(p, adds[i]) && p.addClause(adds[i]).Some?
    ensures Run(p, s, adds) ==
      Success(s.(tableDefs := s.tableDefs[s.curTable := AppendColumns(s.tableDefs[s.curTable], AddClauses(p, adds))]))
    decreases |adds|
  {
    var t := s.curTable;
    var body := s.tableDefs[t];
    if |adds| == 0 {
      assert s.tableDefs[t := body] == s.tableDefs;
    } else {
      var c := p.addClause(adds[0]).value;
      var body1 := AppendColumn(body, c);
      var next := s.(tableDefs := s.tableDefs[t := body1]);
      AddStep(p, s, adds[0]);
      assert Run(p, s, adds) == Run(p, next, adds[1..]);
      AddBlock(p, next, adds[1..]);
      var cs := AddClauses(p, adds[1..]);
      assert AddClauses(p, adds) == [c] + cs;
      assert ([c] + cs)[0] == c && ([c] + cs)[1..] == cs;
      assert AppendColumns(body, [c] + cs) == AppendColumns(body1, cs);
      UpdateTwice(s.tableDefs, t, body1, AppendColumns(body1, cs));
    }
  }

  /**
   * `ALTER TABLE t` followed by `ADD` lines: the block opens on `t` and all
   * the clauses are appended to `t`'s body in order, however many there are.
   */
  lemma AlterTableAdds(p: Patterns, s: State, alter: string, adds: seq<string>)
    requires Valid(s) && Scanning(s) && Live(p, alter)
    requires p.tableOpen(alter).None? && p.alterOpen(alter).Some?
    requires var t := p.alterOpen(alter).value; t in s.tableDefs && |s.tableDefs[t]| > 0
    requires forall i :: 0 <= i < |adds| ==> Live(p, adds[i]) && p.addClause(adds[i]).Some?
    ensures var t := p.alterOpen(alter).value;
      Run(p, s, [alter] + adds) ==
        Success(s.(inAlterTable := true, curTable := t, tableDefs := s.tableDefs[t := AppendColumns(s.tableDefs[t], AddClauses(p, adds))]))
  {
    var t := p.alterOpen(alter).value;
    var opened_ := s.(inAlterTable := true, curTable := t);
    assert Step(p, s, alter) == Success(opened_);
    assert ([alter] + adds)[0] == alter && ([alter] + adds)[1..] == adds;
    assert Run(p, s, [alter] + adds) == Run(p, opened_, adds);
    AddBlock(p, opened_, adds);
  }

  /**
   * The scan of `MODIFY` is decided by the first line that names `col` or
   * names nothing: every line before it names another column.
   */
  lemma FindColumnAt(p: Patterns, body: seq<string>, col: string, i: nat)
    requires i < |body| && NamedOther(p, body[..i], col)
    requires p.columnName(body[i]).None? || p.columnName(body[i]) == Some(col)
    ensures p.columnName(body[i]).None? ==> FindColumn(p, body, col) == Unnamed(i)
    ensures p.columnName(body[i]) == Some(col) ==> FindColumn(p, body, col) == Found(i)
  {
    var r := FindColumn(p, body, col);
    NamedOtherBefore(p, body, col, i);
    if r.Found? || r.Unnamed? {
      NamedOtherBefore(p, body, col, r.index);
    }
  }

  /** `NamedOther` of a prefix, read off the body itself. */
  lemma NamedOtherBefore(p: Patterns, body: seq<string>, col: string, n: nat)
    requires n <= |body| && NamedOther(p, body[..n], col)
    ensures forall k :: 0 <= k < n ==> p.columnName(body[k]).Some? && p.columnName(body[k]) != Some(col)
  {
    assert forall k :: 0 <= k < n ==> body[..n][k] == body[k];
  }

  /**
   * `MODIFY` on a known table replaces the first body line that names the
   * clause's column, when every earlier line names some other column: that
   * line becomes a space, the clause and a comma, and nothing else changes
   * (sconv.py:118-124).
   */
  lemma ModifyReplacesFirstMatch(p: Patterns, s: State, clause: string, i: nat)
    requires Valid(s) && s.curTable in s.tableDefs && p.columnName(clause).Some?
    requires var body := s.tableDefs[s.curTable];
      && i < |body| && p.columnName(body[i]) == p.columnName(clause)
      && NamedOther(p, body[..i], p.columnName(clause).value)
    ensures ApplyModify(p, s, clause) ==
      Success(s.(tableDefs := s.tableDefs[s.curTable := s.tableDefs[s.curTable][i := ModifiedLine(clause)]]))
  {
    FindColumnAt(p, s.tableDefs[s.curTable], p.columnName(clause).value, i);
  }

  /**
   * `MODIFY` raises at the first body line without a quoted column name
   * when no earlier line names the clause's column (`col_regx.match(tline)`
   * is None at sconv.py:121), and the exception carries that line.
   */
  lemma ModifyRaisesAtFirstUnnamed(p: Patterns, s: State, clause: string, i: nat)
    requires Valid(s) && s.curTable in s.tableDefs && p.columnName(clause).Some?
    requires var body := s.tableDefs[s.curTable];
      && i < |body| && p.columnName(body[i]).None?
      && NamedOther(p, body[..i], p.columnName(clause).value)
    ensures ApplyModify(p, s, clause) == Failure(ModifyUnnamedLine(s.curTable, s.tableDefs[s.curTable][i]))
  {
    FindColumnAt(p, s.tableDefs[s.curTable], p.columnName(clause).value, i);
  }

  /**
   * The line is a `CREATE TABLE` line that the loop handles at the top level
   * in state `s`: it is live, no insert or table body is open, and if an
   * alter block is open the line is neither `ADD` nor `MODIFY`.
   */
  predicate DeclaresTable(p: Patterns, s: State, line: string) {
    && Live(p, line) && !s.inInsert && !s.inTableDef
    && (s.inAlterTable ==> p.addClause(line).None? && p.modifyClause(line).None?)
    && p.tableOpen(line).Some?
  }

  /** The names of the `CREATE TABLE` lines a run from `s` handles at the top level, in input order. */
  function DeclaredNames(p: Patterns, s: State, lines: seq<string>): seq<string>
    requires Valid(s)
    decreases |lines|
  {
    if |lines| == 0 then []
    else
      match Step(p, s, lines[0])
      case Failure(_) => []
      case Success(next) =>
        (if DeclaresTable(p, s, lines[0]) then [p.tableOpen(lines[0]).value] else []) + DeclaredNames(p, next, lines[1..])
  }

  /** One step appends to `tableOrder` exactly the name it declares, if any. */
  lemma StepDeclares(p: Patterns, s: State, line: string)
    requires Valid(s) && Step(p, s, line).Success?
    ensures Step(p, s, line).value.tableOrder ==
      s.tableOrder + (if DeclaresTable(p, s, line) then [p.tableOpen(line).value] else [])
  {
    if Live(p, line) && !s.inInsert && !s.inTableDef && s.inAlterTable {
      if p.addClause(line).None? && p.modifyClause(line).None? {
        AlterBlockEnds(p, s, line);
      }
    }
  }

  /**
   * `table_order` after a run is the order before it followed by the names
   * of the `CREATE TABLE` lines handled at the top level, one per line and
   * in input order (sconv.py:128-131).
   */
  lemma {:induction false} TableOrderDeclared(p: Patterns, s: State, lines: seq<string>)
    requires Valid(s) && Run(p, s, lines).Success?
    ensures Run(p, s, lines).value.tableOrder == s.tableOrder + DeclaredNames(p, s, lines)
    decreases |lines|
  {
    if |lines| == 0 {
      assert s.tableOrder + [] == s.tableOrder;
    } else {
      var next := RunHead(p, s, lines);
      var d := if DeclaresTable(p, s, lines[0]) then [p.tableOpen(lines[0]).value] else [];
      StepDeclares(p, s, lines[0]);
      TableOrderDeclared(p, next, lines[1..]);
      ConcatAssoc(s.tableOrder, d, DeclaredNames(p, next, lines[1..]));
    }
  }

  /** A successful run over a non-empty block is its first step, then the run over the rest; so is `DeclaredNames`. */
  lemma RunHead(p: Patterns, s: State, lines: seq<string>) returns (next: State)
    requires Valid(s) && |lines| > 0 && Run(p, s, lines).Success?
    ensures Step(p, s, lines[0]) == Success(next) && Valid(next)
    ensures Run(p, s, lines) == Run(p, next, lines[1..])
    ensures DeclaredNames(p, s, lines) ==
      (if DeclaresTable(p, s, lines[0]) then [p.tableOpen(lines[0]).value] else []) + DeclaredNames(p, next, lines[1..])
  {
    next := Step(p, s, lines[0]).value;
  }

  lemma ConcatAssoc(x: seq<string>, d: seq<string>, e: seq<string>)
    ensures (x + d) + e == x + (d + e)
  {
  }

  /**
   * The converted dump opens with one `CREATE TABLE` block per `CREATE TABLE`
   * line handled at the top level, in input order, each with the final body
   * of its table (sconv.py:128-131 and 158-159).
   */
  lemma BlocksFollowDeclarations(p: Patterns, lines: seq<string>)
    requires Convert(p, lines).Success?
    ensures var names := DeclaredNames(p, Start, lines);
      var s := Run(p, Start, lines).value;
      && |names| <= |Convert(p, lines).value|
      && forall i :: 0 <= i < |names| ==> names[i] in s.tableDefs && Convert(p, lines).value[i] == CreateBlock(names[i], s.tableDefs[names[i]])
  {
    StartValid();
    TableOrderDeclared(p, Start, lines);
    assert Run(p, Start, lines).value.tableOrder == DeclaredNames(p, Start, lines);
  }

  /** A table declared twice is emitted twice, both times with the body it has at the end. */
  lemma RedeclaredTableEmittedAlike(s: State, i: nat, j: nat)
    requires Valid(s) && i < |s.tableOrder| && j < |s.tableOrder| && s.tableOrder[i] == s.tableOrder[j]
    ensures Emit(s)[i] == Emit(s)[j] == CreateBlock(s.tableOrder[i], s.tableDefs[s.tableOrder[i]])
  {
  }

  /**
   * Under the close test of phpmyadmin2mysqldump.py, which wants white space
   * after the `)`, a bare `);` line is stored in the open body as `);`.
   */
  lemma BareCloseStoredInBody(p: Patterns, s: State)
    requires Valid(s) && s.inTableDef
    requires !p.isComment(");\n") && !p.isTableClose(");\n")
    ensures Step(p, s, ");\n") ==
      Success(s.(tableDefs := s.tableDefs[s.curTable := s.tableDefs[s.curTable] + [");"]]))
  {
    BareCloseLine();
    TableLineStored(p, s, ");\n");
  }

  lemma BareCloseLine()
    ensures BodyLine(");\n") == ");"
  {
    var line := ");\n";
    assert line[0] == ')' && line[2] == '\n';
    LStripKeeps(line, {'\n'});
    RStripDrops(line, {'\n'});
    assert line[..2] == ");";
    RStripKeeps(");", {'\n'});
  }

  lemma LStripKeeps(s: string, cs: set<char>)
    requires |s| > 0 && s[0] !in cs
    ensures LStrip(s, cs) == s
  {
  }

  lemma RStripDrops(s: string, cs: set<char>)
    requires |s| > 0 && s[|s| - 1] in cs
    ensures RStrip(s, cs) == RStrip(s[..|s| - 1], cs)
  {
  }

  lemma RStripKeeps(s: string, cs: set<char>)
    requires |s| > 0 && s[|s| - 1] !in cs
    ensures RStrip(s, cs) == s
  {
  }
}

=== FILE: classify.dfy ===
/**
 * The line classifiers of the two dump converters. Each one stands for a
 * case-insensitive Python regular expression applied with `match` (anchored
 * at the start of the line); the model leaves them abstract and only relies
 * on what the conversion loops do with their answers. A capturing
 * classifier returns the group the loops read, or None when the expression
 * does not match.
 */
module Classify {
  import opened Wrappers

  /**
   * The expressions at sconv.py:40-50, repeated at phpmyadmin2mysqldump.py:21-31.
   * The two files differ only in `isTableClose`: sconv.py closes a table on
   * `)` followed by anything and a final `;`, while phpmyadmin2mysqldump.py
   * wants white space after the `)`, so a bare `);` closes nothing there.
   */
  datatype Patterns = Patterns(
    tableOpen: string -> Option<string>,     // `CREATE TABLE <name> (`, group 3: the name
    isTableClose: string -> bool,            // `)...;`
    alterOpen: string -> Option<string>,     // `ALTER TABLE <name>`, group 3: the name
    addClause: string -> Option<string>,     // `ADD <text>,|;`, group 2: the text
    modifyClause: string -> Option<string>,  // `MODIFY<text>...,|;`, group 2: the text up to the first comma
    columnName: string -> Option<string>,    // a leading quoted column name, group 3
    isInsertOpen: string -> bool,            // `INSERT INTO ...`
    isInsertClose: string -> bool,           // `...) ;` anywhere on the line
    isEmptyValues: string -> bool,           // `...VALUES ;`
    isComment: string -> bool)               // a leading `#` or `/*`
}

=== FILE: ordering.dfy ===
/**
 * Python's ordering of strings (character by character by code point, a
 * proper prefix first) and `sorted(keys.keys())` over a map's key set.
 */
module Ordering {

  /** `a` sorts no later than `b` under Python's string comparison. */
  predicate LexLe(a: string, b: string)
    decreases |a|
  {
    |a| == 0 || (|b| > 0 && (a[0] < b[0] || (a[0] == b[0] && LexLe(a[1..], b[1..]))))
  }

  lemma {:induction false} LexLeTotal(a: string, b: string)
    ensures LexLe(a, b) || LexLe(b, a)
    decreases |a|
  {
    if |a| > 0 && |b| > 0 && a[0] == b[0] {
      LexLeTotal(a[1..], b[1..]);
    }
  }

  lemma {:induction false} LexLeAntisymmetric(a: string, b: string)
    requires LexLe(a, b) && LexLe(b, a)
    ensures a == b
    decreases |a|
  {
    if |a| > 0 {
      LexLeAntisymmetric(a[1..], b[1..]);
      assert a == [a[0]] + a[1..];
      assert b == [b[0]] + b[1..];
    }
  }

  lemma {:induction false} LexLeTransitive(a: string, b: string, c: string)
    requires LexLe(a, b) && LexLe(b, c)
    ensures LexLe(a, c)
    decreases |a|
  {
    if |a| > 0 && a[0] == b[0] && b[0] == c[0] {
      LexLeTransitive(a[1..], b[1..], c[1..]);
    }
  }

  /** Strictly ascending: every earlier name sorts before every later one and differs from it. */
  predicate StrictlySorted(s: seq<string>) {
    forall i, j :: 0 <= i < j < |s| ==> LexLe(s[i], s[j]) && s[i] != s[j]
  }

  /** `names` lists exactly the keys of `m`, in ascending order, each once. */
  ghost predicate SortedKeysOf<V>(names: seq<string>, m: map<string, V>) {
    StrictlySorted(names) && forall k :: k in names <==> k in m
  }

  lemma ConsSorted(h: string, t: seq<string>)
    requires StrictlySorted(t)
    requires forall k :: k in t ==> LexLe(h, k) && h != k
    ensures StrictlySorted([h] + t)
  {
    forall i, j | 0 <= i < j < |[h] + t|
      ensures LexLe(([h] + t)[i], ([h] + t)[j]) && ([h] + t)[i] != ([h] + t)[j]
    {
      if i == 0 {
        assert ([h] + t)[j] == t[j - 1];
        assert t[j - 1] in t;
      } else {
        assert ([h] + t)[i] == t[i - 1] && ([h] + t)[j] == t[j - 1];
      }
    }
  }

  lemma HeadBelowTail(s: seq<string>)
    requires StrictlySorted(s) && |s| > 0
    ensures forall k :: k in s[1..] ==> LexLe(s[0], k) && s[0] != k
  {
    forall k | k in s[1..] ensures LexLe(s[0], k) && s[0] != k {
      var j :| 0 <= j < |s[1..]| && s[1..][j] == k;
      assert s[j + 1] == k;
    }
  }

  /** Places `x` into an ascending sequence that does not yet hold it. */
  function Insert(s: seq<string>, x: string): (r: seq<string>)
    requires StrictlySorted(s) && x !in s
    ensures StrictlySorted(r)
    ensures forall k :: k in r <==> k in s || k == x
    ensures |r| == |s| + 1
    decreases |s|
  {
    if |s| == 0 then [x]
    else if LexLe(x, s[0]) then
      HeadBelowTail(s);
      assert forall k :: k in s ==> LexLe(x, k) && x != k by {
        forall k | k in s ensures LexLe(x, k) && x != k {
          if k != s[0] {
            assert k in s[1..] by { assert s == [s[0]] + s[1..]; }
            LexLeTransitive(x, s[0], k);
          }
        }
      }
      ConsSorted(x, s);
      [x] + s
    else
      LexLeTotal(x, s[0]);
      HeadBelowTail(s);
      assert s == [s[0]] + s[1..];
      var rest := Insert(s[1..], x);
      ConsSorted(s[0], rest);
      [s[0]] + rest
  }

  /** `sorted(m.keys())`. */
  method SortedKeys<V>(m: map<string, V>) returns (names: seq<string>)
    ensures SortedKeysOf(names, m)
    ensures |names| == |m|
  {
    names := [];
    var rest := m.Keys;
    while rest != {}
      invariant rest <= m.Keys
      invariant StrictlySorted(names)
      invariant forall k :: k in names <==> k in m && k !in rest
      invariant |names| + |rest| == |m|
      decreases |rest|
    {
      var k :| k in rest;
      names := Insert(names, k);
      rest := rest - {k};
    }
  }
}

=== FILE: text.dfy ===
/**
 * The plain string operations both conversion stages perform on a line:
 * Python's `lstrip`/`rstrip`/`strip`, `" ".join`, `str.replace`, the
 * `re.sub(",$", "", line)` that drops a trailing comma, and the first match
 * of a `re.findall` over an opener character followed by a run of
 * non-stop characters.
 */
module Text {
  import opened Wrappers

  /** `s` begins with `prefix`. */
  predicate StartsWith(s: string, prefix: string) {
    |prefix| <= |s| && s[..|prefix|] == prefix
  }

  /** Python's `s.lstrip(cs)`: drops the longest prefix made of characters in `cs`. */
  function LStrip(s: string, cs: set<char>): (r: string)
    ensures |r| <= |s| && r == s[|s| - |r|..]
    ensures forall i :: 0 <= i < |s| - |r| ==> s[i] in cs
    ensures |r| > 0 ==> r[0] !in cs
    decreases |s|
  {
    if |s| > 0 && s[0] in cs then LStrip(s[1..], cs) else s
  }

  /** Python's `s.rstrip(cs)`: drops the longest suffix made of characters in `cs`. */
  function RStrip(s: string, cs: set<char>): (r: string)
    ensures |r| <= |s| && r == s[..|r|]
    ensures forall i :: |r| <= i < |s| ==> s[i] in cs
    ensures |r| > 0 ==> r[|r| - 1] !in cs
    decreases |s|
  {
    if |s| > 0 && s[|s| - 1] in cs then RStrip(s[..|s| - 1], cs) else s
  }

  /** Python's `s.strip(cs)`: both ends. */
  function Strip(s: string, cs: set<char>): (r: string)
    ensures |r| <= |s|
    ensures |r| > 0 ==> r[0] !in cs && r[|r| - 1] !in cs
    ensures (forall i :: 0 <= i < |s| ==> s[i] !in cs) ==> r == s
    ensures (forall i :: 0 <= i < |s| ==> s[i] in cs) ==> r == ""
  {
    RStrip(LStrip(s, cs), cs)
  }

  /** The total length of `parts`. */
  function TotalLength(parts: seq<string>): nat
    decreases |parts|
  {
    if |parts| == 0 then 0 else |parts[0]| + TotalLength(parts[1..])
  }

  /**
   * Python's `sep.join(parts)`: the parts in order with one separator
   * between each two of them and none at either end.
   */
  function Join(parts: seq<string>, sep: string): (r: string)
    ensures |parts| == 0 ==> r == ""
    ensures |parts| > 0 ==> |r| == TotalLength(parts) + (|parts| - 1) * |sep|
    ensures |parts| > 0 ==> StartsWith(r, parts[0])
    decreases |parts|
  {
    if |parts| == 0 then ""
    else if |parts| == 1 then parts[0]
    else parts[0] + sep + Join(parts[1..], sep)
  }

  /** Joining one more part adds exactly one separator and that part at the end. */
  lemma {:induction false} JoinSnoc(parts: seq<string>, x: string, sep: string)
    requires |parts| > 0
    ensures Join(parts + [x], sep) == Join(parts, sep) + sep + x
    decreases |parts|
  {
    if |parts| == 1 {
      assert parts + [x] == [parts[0], x];
      assert Join([x], sep) == x;
    } else {
      assert (parts + [x])[1..] == parts[1..] + [x];
      JoinSnoc(parts[1..], x, sep);
    }
  }

  /**
   * Python's `s.replace(pat, rep)`: every occurrence of `pat` found by a
   * left-to-right scan, without overlaps, is replaced by `rep`.
   */
  function Replace(s: string, pat: string, rep: string): (r: string)
    requires |pat| > 0
    ensures |rep| <= |pat| ==> |r| <= |s|
    ensures |rep| == |pat| ==> |r| == |s|
    decreases |s|
  {
    if |s| < |pat| then s
    else if s[..|pat|] == pat then rep + Replace(s[|pat|..], pat, rep)
    else [s[0]] + Replace(s[1..], pat, rep)
  }

  /** A prefix that does not contain the first character of `pat` holds no occurrence and is kept. */
  lemma {:induction false} ReplaceUntouched(a: string, b: string, pat: string, rep: string)
    requires |pat| > 0 && pat[0] !in a
    ensures Replace(a + b, pat, rep) == a + Replace(b, pat, rep)
    decreases |a|
  {
    if |a| == 0 {
      assert a + b == b;
    } else if |a + b| < |pat| {
      assert Replace(b, pat, rep) == b;
    } else {
      var s := a + b;
      var t := Replace(b, pat, rep);
      assert s[..|pat|][0] == a[0];
      assert s[1..] == a[1..] + b;
      ReplaceUntouched(a[1..], b, pat, rep);
      assert [a[0]] + (a[1..] + t) == a + t;
    }
  }

  /** An occurrence at the front is replaced, and the scan goes on behind it. */
  lemma ReplaceAt(b: string, pat: string, rep: string)
    requires |pat| > 0
    ensures Replace(pat + b, pat, rep) == rep + Replace(b, pat, rep)
  {
    assert (pat + b)[..|pat|] == pat;
    assert (pat + b)[|pat|..] == b;
  }

  /**
   * The first occurrence of `pat`, with no character of `a` able to start
   * one, becomes `rep`; the text in front is kept and the rest is scanned
   * anew.
   */
  lemma ReplaceOccurrence(a: string, b: string, pat: string, rep: string)
    requires |pat| > 0 && pat[0] !in a
    ensures Replace(a + pat + b, pat, rep) == a + rep + Replace(b, pat, rep)
  {
    ReplaceUntouched(a, pat + b, pat, rep);
    assert a + pat + b == a + (pat + b);
    ReplaceAt(b, pat, rep);
  }

  /**
   * A two-character text that starts like the two-character `pat` but is
   * not it, and whose second character cannot start it, is kept.
   */
  lemma ReplacePass(x: string, b: string, pat: string, rep: string)
    requires |x| == 2 && |pat| == 2 && x[0] == pat[0] && x[1] != pat[1] && x[1] != pat[0]
    ensures Replace(x + b, pat, rep) == x + Replace(b, pat, rep)
  {
    var s := x + b;
    assert s[..|pat|] == x;
    assert x != pat by { assert x[1] != pat[1]; }
    ReplaceSkip(s, pat, rep);
    assert s[0] == x[0] && s[1..] == [x[1]] + b;
    ReplaceUntouched([x[1]], b, pat, rep);
    assert [x[0]] + ([x[1]] + Replace(b, pat, rep)) == x + Replace(b, pat, rep);
  }

  /** Where `pat` does not start, the scan keeps one character and moves on. */
  lemma ReplaceSkip(s: string, pat: string, rep: string)
    requires |pat| > 0 && |s| >= |pat| && s[..|pat|] != pat
    ensures Replace(s, pat, rep) == [s[0]] + Replace(s[1..], pat, rep)
  {
  }

  /** The anchor `,$` of Python's `re`: a comma that ends `s`, or stands just before a final newline. */
  predicate EndsWithComma(s: string) {
    || (|s| >= 1 && s[|s| - 1] == ',')
    || (|s| >= 2 && s[|s| - 2] == ',' && s[|s| - 1] == '\n')
  }

  /**
   * `re.sub(",$", "", line)`. At most one comma can sit at the anchor, so at
   * most one character goes; everything else, including a final newline, stays.
   */
  function StripTrailingComma(line: string): (r: string)
    ensures r == line <==> !EndsWithComma(line)
    ensures r != line ==>
      var k := if line[|line| - 1] == '\n' then |line| - 2 else |line| - 1;
      0 <= k < |line| && line[k] == ',' && r == line[..k] + line[k + 1..]
  {
    if EndsWithComma(line) then
      var k := if line[|line| - 1] == '\n' then |line| - 2 else |line| - 1;
      line[..k] + line[k + 1..]
    else
      line
  }

  /** Position `i` holds `opener` and the next character is not a stop character. */
  predicate OpensRun(s: string, i: int, opener: char, stops: set<char>) {
    0 <= i && i + 1 < |s| && s[i] == opener && s[i + 1] !in stops
  }

  /** The leftmost position at or after `from` that opens a run. */
  function RunStart(s: string, opener: char, stops: set<char>, from: nat): (r: Option<nat>)
    requires from <= |s|
    ensures r.Some? ==> from <= r.value && OpensRun(s, r.value, opener, stops)
    ensures r.Some? ==> forall j :: from <= j < r.value ==> !OpensRun(s, j, opener, stops)
    ensures r.None? ==> forall j :: from <= j < |s| ==> !OpensRun(s, j, opener, stops)
    decreases |s| - from
  {
    if from + 1 >= |s| then None
    else if s[from] == opener && s[from + 1] !in stops then Some(from)
    else RunStart(s, opener, stops, from + 1)
  }

  /** The longest prefix of `s` free of stop characters. */
  function Span(s: string, stops: set<char>): (r: string)
    ensures |r| <= |s| && r == s[..|r|]
    ensures forall i :: 0 <= i < |r| ==> r[i] !in stops
    ensures |r| < |s| ==> s[|r|] in stops
    decreases |s|
  {
    if |s| == 0 || s[0] in stops then "" else [s[0]] + Span(s[1..], stops)
  }

  /**
   * `re.findall(o + "[^" + stops + "]+", s)[0][1:]`: the run of non-stop
   * characters that follows the leftmost `opener` followed by a non-stop
   * character; None when `findall` finds nothing.
   */
  function FirstRun(s: string, opener: char, stops: set<char>): (r: Option<string>)
    ensures r.None? <==> forall j :: 0 <= j < |s| ==> !OpensRun(s, j, opener, stops)
    ensures r.Some? ==> exists i ::
      && OpensRun(s, i, opener, stops)
      && (forall j :: 0 <= j < i ==> !OpensRun(s, j, opener, stops))
      && i + 1 + |r.value| <= |s|
      && r.value == s[i + 1..i + 1 + |r.value|]
      && (i + 1 + |r.value| == |s| || s[i + 1 + |r.value|] in stops)
    ensures r.Some? ==> |r.value| > 0 && forall k :: 0 <= k < |r.value| ==> r.value[k] !in stops
  {
    match RunStart(s, opener, stops, 0)
    case None => None
    case Some(i) =>
      var run := Span(s[i + 1..], stops);
      assert run == s[i + 1..i + 1 + |run|];
      Some(run)
  }

  /** Python's `line.replace("\\n", "\n").replace("\\r", "\r").replace("\\'", "\"")` (sconv.py:303-305). */
  function Unescape(line: string): (r: string)
    ensures |r| <= |line|
  {
    Replace(Replace(Replace(line, "\\n", "\n"), "\\r", "\r"), "\\'", "\"")
  }

  /** A line without a backslash holds no escape sequence and is written unchanged. */
  lemma UnescapeWithoutBackslash(line: string)
    requires '\\' !in line
    ensures Unescape(line) == line
  {
    assert line + "" == line;
    ReplaceUntouched(line, "", "\\n", "\n");
    ReplaceUntouched(line, "", "\\r", "\r");
    ReplaceUntouched(line, "", "\\'", "\"");
  }

  /** The first escape of a line, `\n`, becomes a newline; what precedes it is kept. */
  lemma UnescapeNewline(a: string, b: string)
    requires '\\' !in a
    ensures Unescape(a + "\\n" + b) == a + "\n" + Unescape(b)
  {
    var b1 := Replace(b, "\\n", "\n");
    var b2 := Replace(b1, "\\r", "\r");
    ReplaceOccurrence(a, b, "\\n", "\n");
    ReplaceUntouched(a + "\n", b1, "\\r", "\r");
    ReplaceUntouched(a + "\n", b2, "\\'", "\"");
  }

  /** The first escape of a line, `\r`, becomes a carriage return; what precedes it is kept. */
  lemma UnescapeReturn(a: string, b: string)
    requires '\\' !in a
    ensures Unescape(a + "\\r" + b) == a + "\r" + Unescape(b)
  {
    var b1 := Replace(b, "\\n", "\n");
    var b2 := Replace(b1, "\\r", "\r");
    PassAll(a, "\\r", b, "\\n", "\n");
    ReplaceOccurrence(a, b1, "\\r", "\r");
    ReplaceUntouched(a + "\r", b2, "\\'", "\"");
  }

  /** The first escape of a line, `\'`, becomes a double quote; what precedes it is kept. */
  lemma UnescapeQuote(a: string, b: string)
    requires '\\' !in a
    ensures Unescape(a + "\\'" + b) == a + "\"" + Unescape(b)
  {
    var b1 := Replace(b, "\\n", "\n");
    var b2 := Replace(b1, "\\r", "\r");
    PassAll(a, "\\'", b, "\\n", "\n");
    PassAll(a, "\\'", b1, "\\r", "\r");
    ReplaceOccurrence(a, b2, "\\'", "\"");
  }

  /**
   * Any other backslash pair is not an escape: a backslash followed by a
   * character other than `n`, `r`, `'` or a backslash stays as it is.
   */
  lemma UnescapeOtherPair(a: string, c: char, b: string)
    requires '\\' !in a && c != 'n' && c != 'r' && c != '\'' && c != '\\'
    ensures Unescape(a + ['\\', c] + b) == a + ['\\', c] + Unescape(b)
  {
    var e := ['\\', c];
    var b1 := Replace(b, "\\n", "\n");
    var b2 := Replace(b1, "\\r", "\r");
    var b3 := Replace(b2, "\\'", "\"");
    PassAll(a, e, b, "\\n", "\n");
    PassAll(a, e, b1, "\\r", "\r");
    PassAll(a, e, b2, "\\'", "\"");
  }

  /** `e` and what precedes it pass one replace untouched. */
  lemma PassAll(a: string, e: string, b: string, pat: string, rep: string)
    requires '\\' !in a && |e| == 2 && |pat| == 2 && e[0] == pat[0] == '\\' && e[1] != pat[1] && e[1] != '\\'
    ensures Replace(a + e + b, pat, rep) == a + e + Replace(b, pat, rep)
  {
    assert a + e + b == a + (e + b);
    ReplaceUntouched(a, e + b, pat, rep);
    ReplacePass(e, b, pat, rep);
  }
}

=== FILE: translator.dfy ===
/**
 * Stage B: mysqldump form to a SQLite script (`mysqldump_to_sqlite`,
 * sconv.py:189-322).
 *
 * After a fixed three-line header, one pass folds `Step` over the input
 * lines. Inside a `CREATE TABLE` block each column line is rewritten and
 * held back as the pending line, so that the comma joining it to the next
 * column can be written in front of that next column; `  KEY` lines become
 * `CREATE INDEX` statements kept per table. At the top level `INSERT` lines
 * are unescaped and written. At the end the index statements follow, sorted
 * by table name, and then `END TRANSACTION;`.
 */
module Translator {
  import opened Wrappers
  import opened Text
  import opened Ordering
  import opened Classify

  /**
   * The classifiers and rewrites only this stage uses (sconv.py:185-186 and
   * the inline expressions at sconv.py:240-262), left abstract like `Patterns`.
   * The trigger and view expressions (sconv.py:181-184) are not here: the
   * branches that use them cannot be reached.
   */
  datatype KeyPatterns = KeyPatterns(
    keyMatch: string -> Option<string>,      // `^(  KEY|\);)`, group 1
    hasAutoIncrement: string -> bool,        // `auto_increment`
    isFullTextKey: string -> bool,           // `^  FULLTEXT KEY`
    mentionsKey: string -> bool,             // ` (PRIMARY )?KEY`
    stripKeyLengths: string -> string,       // drops `(<digits>)` length specifiers
    mentionsPrimaryKey: string -> bool,      // `PRIMARY KEY`
    rewriteAutoIncrement: string -> string,  // `auto_increment` to `PRIMARY KEY AUTOINCREMENT`
    rewriteColumn: string -> string)         // the chain of type and attribute rewrites

  /**
   * The exception that aborts a run: the `FULLTEXT KEY` rewrite calls
   * `re.sub` without its string argument, which raises. The chunks already
   * written to the output stay written.
   */
  datatype Error = FullTextKey(line: string, written: seq<string>)

  /**
   * The loop's variables. `pending` is `prev`; the source starts it as None,
   * which every test treats like "". `curTable` starts as "" where the source
   * has None; it is only read inside a table, after `CREATE TABLE` set it.
   * `out` holds, in order, the chunks written to the output.
   */
  datatype State = State(
    inTable: bool,
    curTable: string,
    aInc: bool,
    firstInTable: bool,
    pending: string,
    keys: map<string, string>,
    out: seq<string>)

  const Header: seq<string> := ["PRAGMA synchronous = OFF;\n", "PRAGMA journal_mode = MEMORY;\n", "BEGIN TRANSACTION;\n"]

  const Trailer: string := "END TRANSACTION;"

  /** The state the loop starts in: the header is already written. */
  const Start: State := State(false, "", false, false, "", map[], Header)

  /**
   * What pending lines leave in the output, in order, given whether the
   * table's first column is still to come: empty ones nothing, the first
   * non-empty one itself, every later one behind a comma.
   */
  function CommaList(cols: seq<string>, first: bool): seq<string>
    decreases |cols|
  {
    if |cols| == 0 then []
    else if |cols[0]| == 0 then CommaList(cols[1..], first)
    else [if first then cols[0] else "," + cols[0]] + CommaList(cols[1..], false)
  }

  /** Writes the pending line, if it is not empty, with or without a leading comma. */
  function Flush(s: State): (r: State)
    ensures r.out == s.out + CommaList([s.pending], s.firstInTable)
    ensures r.firstInTable == (s.firstInTable && |s.pending| == 0)
    ensures r == s.(out := r.out, firstInTable := r.firstInTable)
  {
    if |s.pending| == 0 then s
    else if s.firstInTable then s.(firstInTable := false, out := s.out + [s.pending])
    else s.(out := s.out + ["," + s.pending])
  }

  /** `);` closes the table: the pending line goes first. */
  function CloseTable(s: State): (r: State)
    ensures r.out == s.out + CommaList([s.pending], s.firstInTable) + [");\n"]
    ensures !r.inTable && r.pending == "" && r.keys == s.keys && r.aInc == s.aInc && r.curTable == s.curTable
  {
    var f := Flush(s);
    f.(inTable := false, pending := "", out := f.out + [");\n"])
  }

  /** The line after the length specifiers of a key line are dropped (sconv.py:242-243). */
  function KeyStripped(kp: KeyPatterns, line: string): string {
    if kp.mentionsKey(line) then kp.stripKeyLengths(line) else line
  }

  /** The rewritten column line that becomes pending (sconv.py:252-262). */
  function ColumnText(kp: KeyPatterns, line: string): string {
    kp.rewriteColumn(if kp.hasAutoIncrement(line) then kp.rewriteAutoIncrement(line) else line)
  }

  /** A column line: flush the pending line and hold the rewritten one back. */
  function ColumnLine(kp: KeyPatterns, s: State, line: string): (r: State)
    ensures r.out == s.out + CommaList([s.pending], s.firstInTable)
    ensures r.pending == ColumnText(kp, line)
    ensures r.aInc == (s.aInc || kp.hasAutoIncrement(line))
    ensures r.firstInTable == (s.firstInTable && |s.pending| == 0)
    ensures r.inTable == s.inTable && r.curTable == s.curTable && r.keys == s.keys
  {
    Flush(s.(aInc := s.aInc || kp.hasAutoIncrement(line))).(pending := ColumnText(kp, line))
  }

  /** The index name: the first backtick-quoted token (`re.findall("\`[^`]+", line)`), or "". */
  function IndexName(line: string): (r: string)
    ensures r == "" <==> forall j :: 0 <= j < |line| ==> !OpensRun(line, j, '`', {'`'})
    ensures forall k :: 0 <= k < |r| ==> r[k] != '`'
  {
    FirstRun(line, '`', {'`'}).GetOr("")
  }

  /** The indexed columns: the text after the first `(` up to the next parenthesis, or "". */
  function IndexColumns(line: string): (r: string)
    ensures r == "" <==> forall j :: 0 <= j < |line| ==> !OpensRun(line, j, '(', {'(', ')'})
    ensures forall k :: 0 <= k < |r| ==> r[k] != '(' && r[k] != ')'
  {
    FirstRun(line, '(', {'(', ')'}).GetOr("")
  }

  /**
   * The statement of sconv.py:292, `CREATE INDEX "<table>_<name>" ON
   * "<table>" (<cols>);` and a newline: the index is named after the table
   * and the key, and the column list stands in parentheses.
   */
  function IndexStatement(table: string, name: string, cols: string): (r: string)
    ensures StartsWith(r, "CREATE INDEX \"" + table + "_" + name + "\" ON \"" + table + "\" (")
    ensures |r| == 27 + 2 * |table| + |name| + |cols|
    ensures r[24 + 2 * |table| + |name|..|r| - 3] == cols
    ensures r[|r| - 3..] == ");\n"
  {
    "CREATE INDEX \"" + table + "_" + name + "\" ON \"" + table + "\" (" + cols + ");\n"
  }

  /** Appends the `CREATE INDEX` statement of one key line to the text kept for `table`. */
  function AddIndex(keys: map<string, string>, table: string, line: string): (r: map<string, string>)
    ensures r.Keys == keys.Keys + {table}
    ensures r[table] == (if table in keys then keys[table] else "") + IndexStatement(table, IndexName(line), IndexColumns(line))
    ensures forall t :: t in keys && t != table ==> r[t] == keys[t]
  {
    keys[table := (if table in keys then keys[table] else "") + IndexStatement(table, IndexName(line), IndexColumns(line))]
  }

  /**
   * A key line, after the pending line was flushed (sconv.py:279-292): a
   * `  KEY` line writes nothing and adds its `CREATE INDEX` statement to the
   * current table's text; the `);` form is written as it stands.
   */
  function KeyLine(s: State, line: string, group: string): (r: State)
    ensures r == s.(out := r.out, keys := r.keys)
    ensures group == ");" ==> r.keys == s.keys && r.out == s.out + [line]
    ensures group != ");" ==>
      && r.out == s.out && r.keys.Keys == s.keys.Keys + {s.curTable}
      && s.keys.Keys - {s.curTable} <= r.keys.Keys
      && (if s.curTable in s.keys then s.keys[s.curTable] else "") <= r.keys[s.curTable]
    ensures group != ");" ==> r.keys == AddIndex(s.keys, s.curTable, line)
  {
    if group == ");" then s.(out := s.out + [line])
    else s.(keys := AddIndex(s.keys, s.curTable, line))
  }

  /** One line inside a table block (sconv.py:225-294), after its trailing comma was dropped. */
  function TableLine(p: Patterns, kp: KeyPatterns, s: State, line: string): (r: Result<State, Error>)
    requires s.inTable
    ensures r.Success? ==> s.out <= r.value.out && r.value.curTable == s.curTable
    ensures r.Failure? <==> !p.isTableClose(line) && StartsWith(line, "  ") && kp.isFullTextKey(line)
    ensures r.Failure? ==> r.error == FullTextKey(line, s.out)
  {
    if p.isTableClose(line) then Success(CloseTable(s))
    else if !StartsWith(line, "  ") then Success(s)
    else if kp.isFullTextKey(line) then Failure(FullTextKey(line, s.out))
    else
      var l := KeyStripped(kp, line);
      if s.aInc && kp.mentionsPrimaryKey(l) then Success(s)
      else
        match kp.keyMatch(l)
        case None => Success(ColumnLine(kp, s, l))
        case Some(group) => Success(KeyLine(Flush(s).(pending := ""), l, group))
  }

  /**
   * One line outside a table (sconv.py:295-317): comments are skipped,
   * `INSERT` lines are unescaped and written, `CREATE TABLE` is written and
   * opens a table with fresh per-table flags; anything else is dropped.
   */
  function TopLevel(p: Patterns, s: State, line: string): (r: State)
    ensures s.out <= r.out
    ensures p.isComment(line) ==> r == s
    ensures !p.isComment(line) && p.isInsertOpen(line) ==> r == s.(pending := "", out := s.out + [Unescape(line)])
    ensures !p.isComment(line) && !p.isInsertOpen(line) && p.tableOpen(line).Some? ==>
      && r.inTable && r.curTable == p.tableOpen(line).value && r.out == s.out + [line]
      && !r.aInc && r.firstInTable && r.pending == "" && r.keys == s.keys
    ensures !p.isComment(line) && !p.isInsertOpen(line) && p.tableOpen(line).None? ==> r == s
  {
    if p.isComment(line) then s
    else if p.isInsertOpen(line) then s.(pending := "", out := s.out + [Unescape(line)])
    else
      match p.tableOpen(line)
      case Some(t) => s.(curTable := t, out := s.out + [line], aInc := false, firstInTable := true, inTable := true, pending := "")
      case None => s
  }

  /** One iteration of the loop: drop a trailing comma, then dispatch on the state. */
  function Step(p: Patterns, kp: KeyPatterns, s: State, raw: string): (r: Result<State, Error>)
    ensures r.Success? ==> s.out <= r.value.out
    ensures r.Failure? ==> s.inTable && r.error.written == s.out
  {
    var line := StripTrailingComma(raw);
    if s.inTable then TableLine(p, kp, s, line) else Success(TopLevel(p, s, line))
  }

  /** The loop over all lines from state `s`; the output written so far survives an abort. */
  function Run(p: Patterns, kp: KeyPatterns, s: State, lines: seq<string>): (r: Result<State, Error>)
    ensures r.Success? ==> s.out <= r.value.out
    ensures r.Failure? ==> s.out <= r.error.written
    decreases |lines|
  {
    if |lines| == 0 then Success(s)
    else
      match Step(p, kp, s, lines[0])
      case Failure(e) => Failure(e)
      case Success(next) => Run(p, kp, next, lines[1..])
  }

  /** The index text kept for each of `tables`, in that order. */
  function IndexTexts(keys: map<string, string>, tables: seq<string>): (r: seq<string>)
    requires forall t :: t in tables ==> t in keys
    ensures |r| == |tables|
    ensures forall i :: 0 <= i < |tables| ==> r[i] == keys[tables[i]]
    decreases |tables|
  {
    if |tables| == 0 then [] else [keys[tables[0]]] + IndexTexts(keys, tables[1..])
  }

  /**
   * The whole conversion: the header, the loop's output, then every table's
   * index statements in ascending order of table name, then `END TRANSACTION;`.
   */
  method Translate(p: Patterns, kp: KeyPatterns, lines: seq<string>) returns (r: Result<seq<string>, Error>)
    ensures Run(p, kp, Start, lines).Failure? ==> r == Failure(Run(p, kp, Start, lines).error)
    ensures r.Failure? ==> Header <= r.error.written
    ensures Run(p, kp, Start, lines).Success? ==> r.Success?
    ensures r.Success? ==>
      var s := Run(p, kp, Start, lines).value;
      && Header <= r.value
      && |r.value| == |s.out| + |s.keys| + 1
      && r.value[..|s.out|] == s.out
      && r.value[|r.value| - 1] == Trailer
      && exists tables :: SortedKeysOf(tables, s.keys) && r.value[|s.out|..|r.value| - 1] == IndexTexts(s.keys, tables)
  {
    var run := Run(p, kp, Start, lines);
    if run.Failure? {
      return Failure(run.error);
    }
    var s := run.value;
    var tables := SortedKeys(s.keys);
    var texts := IndexTexts(s.keys, tables);
    r := Success(s.out + texts + [Trailer]);
    assert r.value[|s.out|..|r.value| - 1] == texts;
    assert r.value[..|s.out|] == s.out;
  }
}

=== FILE: translator_facts.dfy ===
/**
 * Properties of the SQLite translation loop (`mysqldump_to_sqlite`,
 * sconv.py:189-322): how the comma-separated column list of a table comes
 * out, what auto-increment does to later primary key lines, where index
 * statements go, and what the top level writes.
 */
module TranslatorFacts {
  import opened Wrappers
  import opened Text
  import opened Classify
  import opened Translator

  /** The chunks glued together, as they appear in the output file. */
  function Concat(chunks: seq<string>): string
    decreases |chunks|
  {
    if |chunks| == 0 then "" else chunks[0] + Concat(chunks[1..])
  }

  /** The non-empty entries of `cols`, in order. */
  function NonEmpty(cols: seq<string>): (r: seq<string>)
    ensures forall i :: 0 <= i < |r| ==> |r[i]| > 0
    decreases |cols|
  {
    if |cols| == 0 then []
    else if |cols[0]| == 0 then NonEmpty(cols[1..])
    else [cols[0]] + NonEmpty(cols[1..])
  }

  /**
   * The flushed column list reads as the non-empty pending lines joined by
   * commas; when the first column is already out, a comma also leads.
   */
  lemma {:induction false} CommaListJoins(cols: seq<string>, first: bool)
    ensures Concat(CommaList(cols, first)) ==
      (if !first && |NonEmpty(cols)| > 0 then "," else "") + Join(NonEmpty(cols), ",")
    decreases |cols|
  {
    if |cols| > 0 {
      var rest := cols[1..];
      CommaListJoins(rest, first && |cols[0]| == 0);
      if |cols[0]| > 0 {
        var c := cols[0];
        var ne := NonEmpty(rest);
        var head := if first then c else "," + c;
        var tail := CommaList(rest, false);
        assert CommaList(cols, first) == [head] + tail;
        assert NonEmpty(cols) == [c] + ne;
        ConcatCons(head, tail);
        JoinCons(c, ne, ",");
        JoinedAfter(head, c, first, |ne|, Join(ne, ","));
      }
    }
  }

  /** The string algebra of one non-empty column in `CommaListJoins`; `j` joins the `n` later columns. */
  lemma JoinedAfter(head: string, c: string, first: bool, n: nat, j: string)
    requires head == if first then c else "," + c
    requires n == 0 ==> j == ""
    ensures head + ((if n > 0 then "," else "") + j)
      == (if !first then "," else "") + (if n == 0 then c else c + "," + j)
  {
    if n == 0 {
      assert head + ("" + "") == head;
    } else if first {
      assert c + ("," + j) == "" + (c + "," + j);
    } else {
      assert ("," + c) + ("," + j) == "," + (c + "," + j);
    }
  }

  lemma ConcatCons(h: string, rest: seq<string>)
    ensures Concat([h] + rest) == h + Concat(rest)
  {
    assert ([h] + rest)[1..] == rest;
  }

  lemma JoinCons(h: string, rest: seq<string>, sep: string)
    ensures Join([h] + rest, sep) == if |rest| == 0 then h else h + sep + Join(rest, sep)
  {
    assert ([h] + rest)[1..] == rest;
  }

  /** One more pending line: its own flush, then the rest with the updated first-column flag. */
  lemma CommaListCons(x: string, ys: seq<string>, first: bool)
    ensures CommaList([x] + ys, first) == CommaList([x], first) + CommaList(ys, first && |x| == 0)
  {
    assert ([x] + ys)[1..] == ys;
    assert [x][1..] == [];
  }

  /** An empty pending line writes nothing and leaves the first-column flag alone. */
  lemma CommaListSkipsEmpty(ys: seq<string>, first: bool)
    ensures CommaList([""] + ys, first) == CommaList(ys, first)
  {
    assert ([""] + ys)[1..] == ys;
  }

  /** Running two blocks of lines is running the first, then the second from where it left off. */
  lemma {:induction false} RunAppend(p: Patterns, kp: KeyPatterns, s: State, a: seq<string>, b: seq<string>)
    ensures Run(p, kp, s, a).Failure? ==> Run(p, kp, s, a + b) == Run(p, kp, s, a)
    ensures Run(p, kp, s, a).Success? ==> Run(p, kp, s, a + b) == Run(p, kp, Run(p, kp, s, a).value, b)
    decreases |a|
  {
    if |a| == 0 {
      assert a + b == b;
    } else {
      assert (a + b)[0] == a[0];
      assert (a + b)[1..] == a[1..] + b;
      match Step(p, kp, s, a[0])
      case Failure(_) =>
      case Success(next) => RunAppend(p, kp, next, a[1..], b);
    }
  }

  /** The line the loop works on once the trailing comma is gone (sconv.py:207). */
  function Line(raw: string): string {
    StripTrailingComma(raw)
  }

  /** The line as the key tests see it: trailing comma and key length specifiers gone. */
  function KeyView(kp: KeyPatterns, raw: string): string {
    KeyStripped(kp, Line(raw))
  }

  /** An indented table line the loop gets past: not a table close and not a `FULLTEXT KEY`. */
  predicate Indented(p: Patterns, kp: KeyPatterns, raw: string) {
    var line := Line(raw);
    !p.isTableClose(line) && StartsWith(line, "  ") && !kp.isFullTextKey(line)
  }

  /** A table line without the two-space indent: skipped (sconv.py:237-239). */
  predicate Unindented(p: Patterns, raw: string) {
    !p.isTableClose(Line(raw)) && !StartsWith(Line(raw), "  ")
  }

  /** An indented `  KEY` line; the `);` form of the key test is excluded. */
  predicate IndexLine(p: Patterns, kp: KeyPatterns, raw: string) {
    Indented(p, kp, raw) && kp.keyMatch(KeyView(kp, raw)).Some? && kp.keyMatch(KeyView(kp, raw)).value != ");"
  }

  /** An indented column line that does not mention `PRIMARY KEY`. */
  predicate ColumnEntry(p: Patterns, kp: KeyPatterns, raw: string) {
    Indented(p, kp, raw) && kp.keyMatch(KeyView(kp, raw)).None? && !kp.mentionsPrimaryKey(KeyView(kp, raw))
  }

  /**
   * An indented `PRIMARY KEY` line that the key test does not match, such as
   * `  PRIMARY KEY (`id`)`: a column line while no auto-increment column has
   * been seen in the table, dropped after one (sconv.py:244-246).
   */
  predicate PrimaryKeyEntry(p: Patterns, kp: KeyPatterns, raw: string) {
    Indented(p, kp, raw) && kp.keyMatch(KeyView(kp, raw)).None? && kp.mentionsPrimaryKey(KeyView(kp, raw))
  }

  /** The kinds of table body line the column-list lemma covers. */
  predicate BodyShape(p: Patterns, kp: KeyPatterns, raw: string) {
    Unindented(p, raw) || IndexLine(p, kp, raw) || ColumnEntry(p, kp, raw) || PrimaryKeyEntry(p, kp, raw)
  }

  /**
   * The pending line a body line contributes, given whether an auto-increment
   * column has been seen in the table: its rewrite for a column line, and for
   * a `PRIMARY KEY` line only while no auto-increment column has been seen;
   * nothing otherwise.
   */
  function Entry(p: Patterns, kp: KeyPatterns, aInc: bool, raw: string): string {
    if ColumnEntry(p, kp, raw) || (PrimaryKeyEntry(p, kp, raw) && !aInc) then ColumnText(kp, KeyView(kp, raw)) else ""
  }

  /** The auto-increment flag after a body line: raised by a column line that names `auto_increment`. */
  predicate AIncAfter(p: Patterns, kp: KeyPatterns, aInc: bool, raw: string) {
    aInc || ((ColumnEntry(p, kp, raw) || PrimaryKeyEntry(p, kp, raw)) && kp.hasAutoIncrement(KeyView(kp, raw)))
  }

  /** The pending lines of a table body, one per line, starting from auto-increment flag `aInc`. */
  function Entries(p: Patterns, kp: KeyPatterns, aInc: bool, body: seq<string>): (r: seq<string>)
    ensures |r| == |body|
    ensures forall i :: 0 <= i < |body| && ColumnEntry(p, kp, body[i]) ==> r[i] == ColumnText(kp, KeyView(kp, body[i]))
    ensures forall i :: 0 <= i < |body| && !ColumnEntry(p, kp, body[i]) && !PrimaryKeyEntry(p, kp, body[i]) ==> r[i] == ""
    ensures aInc ==> forall i :: 0 <= i < |body| && PrimaryKeyEntry(p, kp, body[i]) ==> r[i] == ""
    decreases |body|
  {
    if |body| == 0 then []
    else [Entry(p, kp, aInc, body[0])] + Entries(p, kp, AIncAfter(p, kp, aInc, body[0]), body[1..])
  }

  lemma UnindentedLineIgnored(p: Patterns, kp: KeyPatterns, s: State, raw: string)
    requires s.inTable && Unindented(p, raw)
    ensures Step(p, kp, s, raw) == Success(s)
  {
  }

  /** A column line flushes the pending line and becomes the new pending line (sconv.py:250-270). */
  lemma ColumnLineHeld(p: Patterns, kp: KeyPatterns, s: State, raw: string)
    requires s.inTable && ColumnEntry(p, kp, raw)
    ensures Step(p, kp, s, raw) == Success(ColumnLine(kp, s, KeyView(kp, raw)))
  {
  }

  /**
   * A `  KEY` line writes nothing of its own: it flushes the pending line,
   * clears it, and adds one `CREATE INDEX` statement to the current table's
   * deferred text (sconv.py:271-292).
   */
  lemma KeyLineDeferred(p: Patterns, kp: KeyPatterns, s: State, raw: string)
    requires s.inTable && IndexLine(p, kp, raw)
    requires !(s.aInc && kp.mentionsPrimaryKey(KeyView(kp, raw)))
    ensures Step(p, kp, s, raw).Success?
    ensures var r := Step(p, kp, s, raw).value;
      && r.out == s.out + CommaList([s.pending], s.firstInTable)
      && r.pending == ""
      && r.inTable && r.curTable == s.curTable && r.aInc == s.aInc
      && r.firstInTable == (s.firstInTable && |s.pending| == 0)
      && r.keys == AddIndex(s.keys, s.curTable, KeyView(kp, raw))
  {
  }

  /** Once auto-increment was seen in this table, a line naming `PRIMARY KEY` is dropped outright (sconv.py:244-246). */
  lemma PrimaryKeyLineDropped(p: Patterns, kp: KeyPatterns, s: State, raw: string)
    requires s.inTable && s.aInc && Indented(p, kp, raw) && kp.mentionsPrimaryKey(KeyView(kp, raw))
    ensures Step(p, kp, s, raw) == Success(s)
  {
  }

  /**
   * Before any auto-increment column, a `PRIMARY KEY` line the key test does
   * not match is treated like a column line (sconv.py:244-270).
   */
  lemma PrimaryKeyLineHeld(p: Patterns, kp: KeyPatterns, s: State, raw: string)
    requires s.inTable && !s.aInc && PrimaryKeyEntry(p, kp, raw)
    ensures Step(p, kp, s, raw) == Success(ColumnLine(kp, s, KeyView(kp, raw)))
  {
  }

  /** A body line of one of the covered kinds changes nothing but the column list state and the keys. */
  lemma BodyStep(p: Patterns, kp: KeyPatterns, s: State, raw: string)
    requires s.inTable && BodyShape(p, kp, raw)
    ensures Step(p, kp, s, raw).Success?
    ensures var r := Step(p, kp, s, raw).value;
      && r.inTable && r.curTable == s.curTable
      && r.aInc == AIncAfter(p, kp, s.aInc, raw)
      && r.out + CommaList([r.pending], r.firstInTable)
         == s.out + CommaList([s.pending, Entry(p, kp, s.aInc, raw)], s.firstInTable)
      && (r.firstInTable && |r.pending| == 0) == (s.firstInTable && |s.pending| == 0 && |Entry(p, kp, s.aInc, raw)| == 0)
  {
    var e := Entry(p, kp, s.aInc, raw);
    var fl := s.firstInTable && |s.pending| == 0;
    PairList(s.pending, e, s.firstInTable);
    EmptyList(fl);
    if Unindented(p, raw) {
      UnindentedLineIgnored(p, kp, s, raw);
    } else if s.aInc && kp.mentionsPrimaryKey(KeyView(kp, raw)) {
      PrimaryKeyLineDropped(p, kp, s, raw);
    } else if IndexLine(p, kp, raw) {
      KeyLineDeferred(p, kp, s, raw);
    } else if ColumnEntry(p, kp, raw) {
      ColumnLineHeld(p, kp, s, raw);
    } else {
      PrimaryKeyLineHeld(p, kp, s, raw);
    }
  }

  /** Two pending lines: the first one's flush, then the second with the updated first-column flag. */
  lemma PairList(x: string, y: string, first: bool)
    ensures CommaList([x, y], first) == CommaList([x], first) + CommaList([y], first && |x| == 0)
  {
    CommaListCons(x, [y], first);
    assert [x] + [y] == [x, y];
  }

  lemma EmptyList(first: bool)
    ensures CommaList([""], first) == []
  {
  }

  /** The table close flushes the pending line before `);` (sconv.py:225-235). */
  lemma TableCloseFlushes(p: Patterns, kp: KeyPatterns, s: State, raw: string)
    requires s.inTable && p.isTableClose(Line(raw))
    ensures Step(p, kp, s, raw) == Success(CloseTable(s))
  {
  }

  /**
   * The column list of a table: whatever kinds of body line come before the
   * close, the table's output is exactly the non-empty pending lines, the
   * first one bare and the others behind a comma, then `);`.
   */
  lemma {:induction false} TableOutput(p: Patterns, kp: KeyPatterns, s: State, body: seq<string>, close: string)
    requires s.inTable
    requires forall i :: 0 <= i < |body| ==> BodyShape(p, kp, body[i])
    requires p.isTableClose(Line(close))
    ensures Run(p, kp, s, body + [close]).Success?
    ensures var r := Run(p, kp, s, body + [close]).value;
      && !r.inTable && r.curTable == s.curTable
      && r.out == s.out + CommaList([s.pending] + Entries(p, kp, s.aInc, body), s.firstInTable) + [");\n"]
    decreases |body|
  {
    if |body| == 0 {
      assert body + [close] == [close];
      TableCloseFlushes(p, kp, s, close);
      assert [s.pending] + Entries(p, kp, s.aInc, body) == [s.pending];
    } else {
      var raw := body[0];
      var rest := body[1..];
      BodyStep(p, kp, s, raw);
      var n := Step(p, kp, s, raw).value;
      assert (body + [close])[0] == raw && (body + [close])[1..] == rest + [close];
      assert Run(p, kp, s, body + [close]) == Run(p, kp, n, rest + [close]);
      TableOutput(p, kp, n, rest, close);
      assert Entries(p, kp, s.aInc, body) == [Entry(p, kp, s.aInc, raw)] + Entries(p, kp, n.aInc, rest);
      ColumnListStep(s.out, s.pending, s.firstInTable, n.out, n.pending, n.firstInTable, Entry(p, kp, s.aInc, raw), Entries(p, kp, n.aInc, rest));
    }
  }

  /** One body line's share of `TableOutput`, as list algebra. */
  lemma ColumnListStep(sOut: seq<string>, sp: string, f: bool, nOut: seq<string>, np: string, nf: bool, e: string, es: seq<string>)
    requires nOut + CommaList([np], nf) == sOut + CommaList([sp, e], f)
    requires (nf && |np| == 0) == (f && |sp| == 0 && |e| == 0)
    ensures nOut + CommaList([np] + es, nf) == sOut + CommaList([sp] + ([e] + es), f)
  {
    var fl := f && |sp| == 0;
    var a := CommaList([sp], f);
    var b := CommaList([e], fl);
    var c := CommaList(es, fl && |e| == 0);
    CommaListCons(np, es, nf);
    assert CommaList(es, nf && |np| == 0) == c;
    CommaListCons(e, es, fl);
    CommaListCons(sp, [e] + es, f);
    PairList(sp, e, f);
    Regroup(nOut, CommaList([np], nf), sOut, a, b, c);
  }

  lemma Regroup<T>(x: seq<T>, a: seq<T>, y: seq<T>, b: seq<T>, c: seq<T>, d: seq<T>)
    requires x + a == y + (b + c)
    ensures x + (a + d) == y + (b + (c + d))
  {
    assert x + (a + d) == (x + a) + d;
    assert y + (b + (c + d)) == (y + (b + c)) + d;
  }

  /**
   * A whole table from its `CREATE TABLE` line to its close: the opening line
   * is written, then the column list starting with a bare first column, then
   * `);` (sconv.py:308-314 and 225-294).
   */
  lemma TableTranslated(p: Patterns, kp: KeyPatterns, s: State, open: string, body: seq<string>, close: string)
    requires !s.inTable
    requires !p.isComment(Line(open)) && !p.isInsertOpen(Line(open)) && p.tableOpen(Line(open)).Some?
    requires forall i :: 0 <= i < |body| ==> BodyShape(p, kp, body[i])
    requires p.isTableClose(Line(close))
    ensures Run(p, kp, s, [open] + body + [close]).Success?
    ensures var r := Run(p, kp, s, [open] + body + [close]).value;
      && !r.inTable && r.curTable == p.tableOpen(Line(open)).value
      && r.out == s.out + [Line(open)] + CommaList(Entries(p, kp, false, body), true) + [");\n"]
  {
    var n := TopLevel(p, s, Line(open));
    assert Step(p, kp, s, open) == Success(n);
    assert ([open] + body + [close])[0] == open;
    assert ([open] + body + [close])[1..] == body + [close];
    TableOutput(p, kp, n, body, close);
    CommaListSkipsEmpty(Entries(p, kp, false, body), true);
  }

  /** Inside a table, a line that does not close it keeps the table, its name and a set auto-increment flag. */
  lemma TableStepKeepsTable(p: Patterns, kp: KeyPatterns, s: State, raw: string)
    requires s.inTable && !p.isTableClose(Line(raw))
    requires Step(p, kp, s, raw).Success?
    ensures var r := Step(p, kp, s, raw).value;
      r.inTable && r.curTable == s.curTable && (s.aInc ==> r.aInc)
  {
  }

  /**
   * The auto-increment flag, once set, stays set until the table closes: it
   * is cleared only by the next `CREATE TABLE` (sconv.py:253 and 313).
   */
  lemma {:induction false} AutoIncrementPersists(p: Patterns, kp: KeyPatterns, s: State, lines: seq<string>)
    requires s.inTable && s.aInc
    requires forall i :: 0 <= i < |lines| ==> !p.isTableClose(Line(lines[i]))
    requires Run(p, kp, s, lines).Success?
    ensures var r := Run(p, kp, s, lines).value;
      r.inTable && r.aInc && r.curTable == s.curTable
    decreases |lines|
  {
    if |lines| > 0 {
      TableStepKeepsTable(p, kp, s, lines[0]);
      AutoIncrementPersists(p, kp, Step(p, kp, s, lines[0]).value, lines[1..]);
    }
  }

  /** A column line naming `auto_increment` sets the flag and is rewritten to `PRIMARY KEY AUTOINCREMENT` (sconv.py:252-254). */
  lemma AutoIncrementRewritten(p: Patterns, kp: KeyPatterns, s: State, raw: string)
    requires s.inTable && ColumnEntry(p, kp, raw) && kp.hasAutoIncrement(KeyView(kp, raw))
    ensures Step(p, kp, s, raw).Success?
    ensures var r := Step(p, kp, s, raw).value;
      r.aInc && r.inTable && r.pending == kp.rewriteColumn(kp.rewriteAutoIncrement(KeyView(kp, raw)))
  {
    ColumnLineHeld(p, kp, s, raw);
  }

  /**
   * After an auto-increment column, any later line of the same table that
   * names `PRIMARY KEY` changes nothing, however many lines lie between.
   */
  lemma PrimaryKeyDroppedAfterAutoIncrement(p: Patterns, kp: KeyPatterns, s: State, col: string, between: seq<string>, pk: string)
    requires s.inTable && ColumnEntry(p, kp, col) && kp.hasAutoIncrement(KeyView(kp, col))
    requires forall i :: 0 <= i < |between| ==> !p.isTableClose(Line(between[i]))
    requires Run(p, kp, s, [col] + between).Success?
    requires Indented(p, kp, pk) && kp.mentionsPrimaryKey(KeyView(kp, pk))
    ensures Run(p, kp, s, [col] + between + [pk]) == Run(p, kp, s, [col] + between)
  {
    AutoIncrementRewritten(p, kp, s, col);
    var n := Step(p, kp, s, col).value;
    assert ([col] + between)[0] == col && ([col] + between)[1..] == between;
    assert Run(p, kp, s, [col] + between) == Run(p, kp, n, between);
    AutoIncrementPersists(p, kp, n, between);
    var m := Run(p, kp, n, between).value;
    RunAppend(p, kp, s, [col] + between, [pk]);
    PrimaryKeyLineDropped(p, kp, m, pk);
    assert Run(p, kp, m, [pk]) == Success(m);
  }

  /**
   * Only `CREATE TABLE` raises the first-column flag; every other step
   * keeps it down once it is down (sconv.py:229-230, 265-266, 274-275, 314).
   */
  lemma FirstColumnFlagRaisedOnlyByCreate(p: Patterns, kp: KeyPatterns, s: State, raw: string)
    requires !s.firstInTable
    requires Step(p, kp, s, raw).Success? && Step(p, kp, s, raw).value.firstInTable
    ensures !s.inTable
    ensures !p.isComment(Line(raw)) && !p.isInsertOpen(Line(raw)) && p.tableOpen(Line(raw)).Some?
  {
  }

  /** `a`'s deferred index text is carried into `b`: no table lost, each table's text only extended. */
  predicate KeysExtended(a: map<string, string>, b: map<string, string>) {
    forall t :: t in a ==> t in b && a[t] <= b[t]
  }

  lemma KeysExtendedTransitive(a: map<string, string>, b: map<string, string>, c: map<string, string>)
    requires KeysExtended(a, b) && KeysExtended(b, c)
    ensures KeysExtended(a, c)
  {
  }

  lemma AddIndexExtends(keys: map<string, string>, table: string, line: string)
    ensures KeysExtended(keys, AddIndex(keys, table, line))
  {
  }

  /** A step never drops or rewrites index text already deferred. */
  lemma StepKeepsKeys(p: Patterns, kp: KeyPatterns, s: State, raw: string)
    requires Step(p, kp, s, raw).Success?
    ensures KeysExtended(s.keys, Step(p, kp, s, raw).value.keys)
  {
    var line := Line(raw);
    var r := Step(p, kp, s, raw).value;
    if s.inTable && !p.isTableClose(line) && StartsWith(line, "  ") && !kp.isFullTextKey(line) {
      var l := KeyStripped(kp, line);
      if !(s.aInc && kp.mentionsPrimaryKey(l)) && kp.keyMatch(l).Some? && kp.keyMatch(l).value != ");" {
        assert r.keys == AddIndex(s.keys, s.curTable, l);
        AddIndexExtends(s.keys, s.curTable, l);
      } else {
        assert r.keys == s.keys;
      }
    } else {
      assert r.keys == s.keys;
    }
  }

  /** Index text deferred at any point reaches the end of the run intact, so the final write emits it. */
  lemma {:induction false} RunKeepsKeys(p: Patterns, kp: KeyPatterns, s: State, lines: seq<string>)
    requires Run(p, kp, s, lines).Success?
    ensures KeysExtended(s.keys, Run(p, kp, s, lines).value.keys)
    decreases |lines|
  {
    if |lines| > 0 {
      var n := Step(p, kp, s, lines[0]).value;
      StepKeepsKeys(p, kp, s, lines[0]);
      RunKeepsKeys(p, kp, n, lines[1..]);
      KeysExtendedTransitive(s.keys, n.keys, Run(p, kp, n, lines[1..]).value.keys);
    }
  }

  /** At the top level an `INSERT` line is written once, unescaped, and clears the pending line (sconv.py:300-306). */
  lemma InsertWrittenOnce(p: Patterns, kp: KeyPatterns, s: State, raw: string)
    requires !s.inTable && !p.isComment(Line(raw)) && p.isInsertOpen(Line(raw))
    ensures Step(p, kp, s, raw) == Success(s.(pending := "", out := s.out + [Unescape(Line(raw))]))
  {
  }

  /** At the top level a comment writes nothing and changes nothing (sconv.py:296-298). */
  lemma CommentWritesNothing(p: Patterns, kp: KeyPatterns, s: State, raw: string)
    requires !s.inTable && p.isComment(Line(raw))
    ensures Step(p, kp, s, raw) == Success(s)
  {
  }

  /**
   * A `FULLTEXT KEY` line inside a table aborts the run whatever follows; the
   * output written up to that line is all there is (sconv.py:240-241).
   */
  lemma FullTextKeyAborts(p: Patterns, kp: KeyPatterns, s: State, raw: string, rest: seq<string>)
    requires s.inTable && !p.isTableClose(Line(raw)) && StartsWith(Line(raw), "  ") && kp.isFullTextKey(Line(raw))
    ensures Run(p, kp, s, [raw] + rest) == Failure(FullTextKey(Line(raw), s.out))
  {
    assert ([raw] + rest)[0] == raw;
  }
}

=== FILE: wrappers.dfy ===
/** Failure-compatible wrappers used by both conversion stages. */
module Wrappers {

  /** An optional value; a capturing classifier that does not match yields None. */
  datatype Option<+T> = None | Some(value: T) {

    /** The carried value, or `default` when there is none. */
    function GetOr(default: T): T {
      match this
      case Some(v) => v
      case None => default
    }
  }

  /** Either the value a stage computed or the error that aborted the run. */
  datatype Result<+T, +E> = Success(value: T) | Failure(error: E)
}
